=== FILE: README.md ===
# RapidCMS collection dispatch and relation projection, in Dafny

This project models two parts of RapidCMS.

**`CollectionService`**, the server side of the CMS's collection screens. It:
- turns an action name (`edit`, `new`, `add`, `view`, `list`, `pick`) into a set of usage flags and an authorization operation;
- builds the node editor, the collection list and the relation list for an action;
- dispatches a fired button. It finds the button in the configuration that fits the usage, authorizes, checks the form, runs a custom button's callback, and then performs the button's CRUD effect through the repository. The result is a view command (`Navigate`, `Reload`, `UpdateParameter`, `Return`, `NoOperation`) or an exception.

**`CollectionDataProvider`**, the cached projection behind a relation editor. It holds:
- a snapshot of the related collection's elements (id and labels);
- the ids the owning entity relates to;
- the editor's current selection;
- one change subscription on the repository.

Every operation is a pure function. A dispatcher returns an `Outcome`: its result (a value, or the error the source throws) together with the trace of collaborator calls it made, in order. This makes ordering statements provable. One example: "every repository write and every custom callback comes after a granted authorization, and a missing button, a denial or an invalid form leaves no side effect" (`Intents.DispatchContract`). The collaborators are the repository, the authorization service, `Operations.GetOperationForCrudType` and the `GetEntityVariant` overloads. Each is a total function in an `Env` record.

The provider is a record value. Each of its operations is a transition that may leave a `Threw` status behind together with the state the exception left. A repository change notification is the explicit transition `OnChange`.

Files:
- `common.dfy`: `Option`, `Result`, the error kinds, and the entity.
- `sequences.dfy`: `Where`, `First`, and the subsequence facts they rely on.
- `usage.dfy`: the two classifiers.
- `config.dfy`: the CRUD types, buttons and collection configuration, and the button lookup.
- `intents.dfy`: commands, events, the collaborator environment, and the shared check-and-dispatch combinator.
- `node_service.dfy`, `list_service.dfy`, `relation_service.dfy`: the three families of `CollectionService`.
- `dispatch_lemmas.dfy`: the per-CRUD-type outcomes of each dispatcher.
- `projection.dfy`, `projection_lemmas.dfy`: `CollectionDataProvider`.

## Model

All paths are under `RapidCMS/RapidCMS.Common/`. `CollectionService.cs` is in `Services/`; `CollectionDataProvider.cs` is in `Data/`.

| member | source | states |
|---|---|---|
| Usage.MapActionToUsageType | RapidCMS/RapidCMS.Common/Services/CollectionService.cs:43-55 | Exactly the six action names give a non-empty flag set. That set is a single flag, and never `Node`. Any other string gives the empty set. |
| Usage.ActionName | RapidCMS/RapidCMS.Common/Services/CollectionService.cs:43-55 | The inverse of the usage classifier: each non-`Node` flag has an action name that selects exactly that flag. |
| Usage.ActionNameRoundTrip | RapidCMS/RapidCMS.Common/Services/CollectionService.cs:43-55 | Every recognised action is the name of the flag it selects (action → flag → action round trip). |
| Usage.ClassifierInjective | RapidCMS/RapidCMS.Common/Services/CollectionService.cs:43-55 | Two actions that select the same non-empty flag set are the same action. |
| Operations.MapActionToOperation | RapidCMS/RapidCMS.Common/Services/CollectionService.cs:57-69 | It succeeds exactly on the six actions. Any other string throws `InvalidOperation`, so an unmapped action never reaches authorization. |
| Operations.ClassifiersAgree | RapidCMS/RapidCMS.Common/Services/CollectionService.cs:43-69 | The operation classifier succeeds exactly when the usage classifier gives a flag, and distinct actions get distinct operations. |
| Config.FindButton | RapidCMS/RapidCMS.Common/Services/CollectionService.cs:125-130 | The lookup finds nothing exactly when the button list is null or has no button with the fired id. Otherwise it returns the first such button. |
| Config.PaneButtons | RapidCMS/RapidCMS.Common/Services/CollectionService.cs:338-340 | `SelectMany` over the editor panes: a button is in the result exactly when it is in some pane. The buttons come pane by pane (see `Config.PaneButtonsInOrder`). |
| Config.PaneButtonsOne | RapidCMS/RapidCMS.Common/Services/CollectionService.cs:338-340 | A single pane contributes exactly its own buttons. |
| Config.PaneButtonsInOrder | RapidCMS/RapidCMS.Common/Services/CollectionService.cs:338-341 | The buttons of two runs of panes are the first run's followed by the second's (`SelectMany` keeps pane order). |
| Config.FindButtonEarliestPane | RapidCMS/RapidCMS.Common/Services/CollectionService.cs:592-595 | A button id repeated across panes resolves to the button of the earliest pane that has one; later panes are looked at only when no earlier pane has the id. |
| Sequences.Where | RapidCMS/RapidCMS.Common/Data/CollectionDataProvider.cs:121-138 | LINQ `Where(...).ToList()`: the result is an order-preserving subsequence whose members are exactly the kept members of the source. |
| Sequences.WhereCounts | RapidCMS/RapidCMS.Common/Data/CollectionDataProvider.cs:121-138 | `Where` keeps each kept element exactly as often as the source holds it, and none of the others. |
| Sequences.WhereIdempotent | RapidCMS/RapidCMS.Common/Data/CollectionDataProvider.cs:146-149 | Filtering twice with the same test gives the same list as filtering once, which makes a repeated `RemoveAll` change nothing. |
| Sequences.WhereIsUnique | RapidCMS/RapidCMS.Common/Data/CollectionDataProvider.cs:131-138 | Reference definition: any subsequence with the kept elements' multiplicities is the `Where` result. |
| Sequences.First | RapidCMS/RapidCMS.Common/Data/CollectionDataProvider.cs:142 | `First`/`FirstOrDefault`: nothing exactly when no element matches; otherwise the earliest match. |
| Sequences.FirstConcat | RapidCMS/RapidCMS.Common/Data/CollectionDataProvider.cs:142 | The first match in a concatenation is the first part's first match, or else the second part's. |
| Intents.AuthorizeButton | RapidCMS/RapidCMS.Common/Services/CollectionService.cs:136-144 | The authorization is on the subject entity under the operation that `GetOperationForCrudType` gives for the button's CRUD type. It is granted exactly when the authorization service grants it. |
| Intents.Gate | RapidCMS/RapidCMS.Common/Services/CollectionService.cs:136-157 | Authorization comes first. A denial raises `Unauthorized` and never `InvalidEntity`. An invalid form on a button that needs a valid one raises `InvalidEntity`, and only after a grant. The custom callback runs only when both checks pass. |
| Intents.Dispatch | RapidCMS/RapidCMS.Common/Services/CollectionService.cs:125-190 | A missing button fails before any call. No failed check leaves a side effect, and every side effect follows a granted authorization. A passing button runs exactly its effect stage. |
| NodeService.LoadNodeEntity | RapidCMS/RapidCMS.Common/Services/CollectionService.cs:85-96 | `{Node, View}` and `{Node, Edit}` fetch by id; a missing id throws and an absent entity is "not found". `{Node, New}` creates an entity of the variant. Every other usage is "not found". |
| NodeService.GetNodeEditor | RapidCMS/RapidCMS.Common/Services/CollectionService.cs:71-117 | The node view is used for `view` and the editor otherwise; a missing one throws before any call. A failed load is the result, with its calls. After a successful load the last call authorizes the loaded entity under the action's operation, and the result is `Unauthorized` exactly when the authorization service refuses it; otherwise it is the edit request for that entity. The variant comes from the alias for `new` and from the entity otherwise. Nothing is written. |
| NodeService.NodeEffect | RapidCMS/RapidCMS.Common/Services/CollectionService.cs:159-190 | Each CRUD type's outcome, stated as an if-and-only-if per outcome. `Update` and `Delete` with an id make their one write and then reload or navigate to the List route. Without an id they, and only they, throw `MissingId`. `Insert` always writes. `Return`, and only `Return`, is `NotImplemented`. `Create`/`Add`/`Remove`/`Pick`, and only these, throw the unsupported-type error. `Refresh` reloads, and `None` does nothing. |
| NodeService.NodeEditorButtons | RapidCMS/RapidCMS.Common/Services/CollectionService.cs:125-126 | The node dispatcher looks buttons up in the node editor's buttons whatever the action. The lookup source is null exactly when there is no node editor or it has no buttons. |
| NodeService.ProcessNodeEditorAction | RapidCMS/RapidCMS.Common/Services/CollectionService.cs:119-191 | The dispatch ordering contract over the node editor's buttons, checking the form, and writes only for `Update`/`Insert`/`Delete`. |
| ListService.Rows | RapidCMS/RapidCMS.Common/Services/CollectionService.cs:218-220 | One edit context per entity, in order, each with that entity's variant, the given usage and the given editor. |
| ListService.ArrangeRows | RapidCMS/RapidCMS.Common/Services/CollectionService.cs:214-257 | Configuration choice and row tags. `{List}` uses the list view with `{Node, Edit}` rows that have no editor. The relation `add` branch uses the list view with `{Node, Pick}` rows that have no editor. `edit`/`new` use the list editor with `{Node, Edit}` rows that carry the list editor. `new` puts a `{Node, New}` placeholder first, also with the list editor. The root row never has an editor. Other usages raise `NotImplemented`, and a missing configuration throws. |
| ListService.GetCollectionListView | RapidCMS/RapidCMS.Common/Services/CollectionService.cs:193-258 | The calls are made in the order create blank, authorize, load all. An unknown action throws before authorization and a denial stops before loading. Nothing is written. Only `list`/`edit`/`new` succeed. |
| ListService.CreateCommand | RapidCMS/RapidCMS.Common/Services/CollectionService.cs:297-317 | `Create` needs a variant as metadata. From a list it navigates to the New route; otherwise it switches the parameters to `new` for that variant with a null id. |
| ListService.ListEffect | RapidCMS/RapidCMS.Common/Services/CollectionService.cs:295-330 | No repository call for any CRUD type. `Create` gives the create command. `None` does nothing, `Refresh` reloads and `Return` returns, each exactly for its type. Every other type, and only those, throws the unsupported-type error. |
| ListService.ProcessListAction | RapidCMS/RapidCMS.Common/Services/CollectionService.cs:260-331 | Button lookup comes first, then the blank entity, then authorization. There is no form check, and no call is ever a write. |
| ListService.ListRowEffect | RapidCMS/RapidCMS.Common/Services/CollectionService.cs:378-417 | `Update`, `Insert` and `Delete` each make exactly their own write on the row under the parent; every other type makes no call. `Update`, `Delete` and `Refresh`, and only these, reload. `View`/`Read` navigate to the row's view/edit route, and `Insert` switches to `new` with the inserted id. `None` does nothing and `Return` returns. Only `Create`/`Add`/`Remove`/`Pick` throw. |
| ListService.ProcessListRowAction | RapidCMS/RapidCMS.Common/Services/CollectionService.cs:333-418 | The dispatch ordering contract over the row panes' buttons, checking the form, and writes only for `Update`/`Insert`/`Delete`. |
| ListService.ListButtons | RapidCMS/RapidCMS.Common/Services/CollectionService.cs:265-267 | Collection-level list buttons come from the list view when the usage has `List` and from the list editor otherwise. They are null exactly when that configuration or its buttons are missing. |
| ListService.ListRowButtons | RapidCMS/RapidCMS.Common/Services/CollectionService.cs:338-340 | Row-level list buttons are the view pane's when the usage has `List`. Otherwise they are every editor pane's buttons, pane by pane, and a button is there exactly when some pane has it. Null exactly when the configuration or pane(s) are missing. |
| RelationService.GetRelationListView | RapidCMS/RapidCMS.Common/Services/CollectionService.cs:420-502 | The blank entity is created with the collection alias as its parent id. `add` loads the non-related entities and otherwise the related ones, only after authorization. Rows are arranged with picking for `add`. Nothing is written. |
| RelationService.RelationEffect | RapidCMS/RapidCMS.Common/Services/CollectionService.cs:539-584 | No repository call for any CRUD type. `Create` gives the create command without a parent. `Add` switches to `add`, `None` does nothing, `Refresh` reloads and `Return` returns, each exactly for its type. Every other type, and only those, throws. |
| RelationService.ProcessRelationAction | RapidCMS/RapidCMS.Common/Services/CollectionService.cs:504-585 | The dispatch ordering contract with a parentless blank entity and no form check. No call is ever a write. |
| RelationService.RelationRowEffect | RapidCMS/RapidCMS.Common/Services/CollectionService.cs:632-679 | Without a parent, `Update` and `Delete` write the row's entity, `Pick` relates the row and `Remove` unrelates it, each as its only call. `Insert` inserts and then relates the inserted id. Non-mutating types make no call. Exactly `Update`/`Delete`/`Pick`/`Remove`/`Refresh` reload. `View`/`Read` navigate without a parent, and `None` does nothing. Only `Create`/`Add`/`Return` throw. |
| RelationService.ProcessRelationRowAction | RapidCMS/RapidCMS.Common/Services/CollectionService.cs:587-680 | The dispatch ordering contract over the relation row's buttons, and writes only for mutating CRUD types. |
| RelationService.RelationRows | RapidCMS/RapidCMS.Common/Services/CollectionService.cs:439-441 | `add` reads the non-related entities and every other usage the related ones, each through the matching repository call on the owner. |
| RelationService.RelationButtons | RapidCMS/RapidCMS.Common/Services/CollectionService.cs:509-511 | Collection-level relation buttons come from the list view when the usage has `List` or `Add`, and from the list editor otherwise. Null exactly when that configuration or its buttons are missing. |
| RelationService.RelationRowButtons | RapidCMS/RapidCMS.Common/Services/CollectionService.cs:592-594 | Row-level relation buttons are the view pane's when the usage has `List` or `Add`, and otherwise every editor pane's, pane by pane. Null exactly when the configuration or pane(s) are missing. |
| RelationService.ButtonSourcesMatchLists | RapidCMS/RapidCMS.Common/Services/CollectionService.cs:509-511 | The relation family looks buttons up exactly where the list family does, with `add` treated as `list` (compare lines 265-267 and 338-340). |
| DispatchProperties.NodeUpdateSaves | RapidCMS/RapidCMS.Common/Services/CollectionService.cs:167-169 | A passing `Update` writes the entity under the given id and reloads. Without an id it throws after the checks and writes nothing. |
| DispatchProperties.NodeInsertNavigates | RapidCMS/RapidCMS.Common/Services/CollectionService.cs:171-173 | A passing `Insert` inserts and navigates to the Edit route of the inserted entity's id. |
| DispatchProperties.NodeDeleteNavigates | RapidCMS/RapidCMS.Common/Services/CollectionService.cs:175-177 | A passing `Delete` deletes by id and navigates to the collection's List route. Without an id it throws `MissingId` after the checks and writes nothing. |
| DispatchProperties.NodeReturnNotImplemented | RapidCMS/RapidCMS.Common/Services/CollectionService.cs:185-186 | A node `Return` button always fails and never writes. |
| DispatchProperties.NodeOtherOutcomes | RapidCMS/RapidCMS.Common/Services/CollectionService.cs:159-190 | `None` does nothing, `Refresh` reloads, and `View`/`Read` navigate to the view/edit route without writing. Create/Add/Remove/Pick throw `InvalidOperation`. |
| DispatchProperties.ListCreate | RapidCMS/RapidCMS.Common/Services/CollectionService.cs:297-317 | `Create` from `list` navigates to the New route of the button's variant. From any other action it switches the parameters to `new` with that variant and a null id. |
| DispatchProperties.RelationCreate | RapidCMS/RapidCMS.Common/Services/CollectionService.cs:547-560 | Relation `Create` from `list` navigates to the New route of the button's variant without a parent id. From any other action, `add` included, it switches the parameters to `new` with that variant, no parent and a null id. |
| DispatchProperties.OnlyListSelectsList | RapidCMS/RapidCMS.Common/Services/CollectionService.cs:43-55 | `List` is among an action's flags exactly for `list`, which decides both `Create` branches. |
| DispatchProperties.CreateNeedsVariant | RapidCMS/RapidCMS.Common/Services/CollectionService.cs:298-301 | `Create` without a variant as metadata throws `InvalidOperation` in the list and relation families. |
| DispatchProperties.ListRowInsert | RapidCMS/RapidCMS.Common/Services/CollectionService.cs:390-399 | A row `Insert` inserts under the parent and switches the parameters to `new` with the inserted entity's id. |
| DispatchProperties.ListRowUpdate | RapidCMS/RapidCMS.Common/Services/CollectionService.cs:386-388 | A passing row `Update` writes the row's entity under its id and the parent, and then reloads. |
| DispatchProperties.ListOtherOutcomes | RapidCMS/RapidCMS.Common/Services/CollectionService.cs:319-329 | Collection level: after the blank entity and the checks, `None` does nothing, `Refresh` reloads, `Return` returns, and other non-writing types throw. Row level (lines 380-384 and 406-416): `View`/`Read` navigate to the row's view/edit route and `None`/`Refresh`/`Return` behave as above. None of these writes. |
| DispatchProperties.ListRowDelete | RapidCMS/RapidCMS.Common/Services/CollectionService.cs:401-404 | A row `Delete` deletes that row's entity and reloads. |
| DispatchProperties.RelationAddSwitchesToPicking | RapidCMS/RapidCMS.Common/Services/CollectionService.cs:563-571 | Relation `Add` switches the parameters to `add` and makes no repository call. |
| DispatchProperties.RelationRowInsertRelates | RapidCMS/RapidCMS.Common/Services/CollectionService.cs:644-654 | A relation row `Insert` inserts without a parent and then relates the inserted id to the owner, in that order. |
| DispatchProperties.RelationRowPickAndRemove | RapidCMS/RapidCMS.Common/Services/CollectionService.cs:661-669 | `Pick` relates the row's id to the owner; `Remove` unrelates it. Both reload. |
| DispatchProperties.RelationRowUpdateDelete | RapidCMS/RapidCMS.Common/Services/CollectionService.cs:640-659 | A passing relation row `Update` writes the row's entity without a parent, and `Delete` deletes it without a parent. Both then reload. |
| DispatchProperties.RelationOtherOutcomes | RapidCMS/RapidCMS.Common/Services/CollectionService.cs:573-583 | Collection level: `None` does nothing, `Refresh` reloads, `Return` returns, and `View`/`Read` throw. Row level (lines 634-638 and 671-678): `View`/`Read` navigate without a parent, `None`/`Refresh` as above, and `Return` throws. None of these writes. |
| DispatchProperties.ReturnOnlyFromLists | RapidCMS/RapidCMS.Common/Services/CollectionService.cs:412-413 | A passing row `Return` gives `ReturnCommand` in the list family. The relation row dispatcher has no such case and throws `InvalidOperation` without writing. |
| DispatchProperties.DeniedRowActionsWriteNothing | RapidCMS/RapidCMS.Common/Services/CollectionService.cs:606-614 | A denial stops both row dispatchers with `Unauthorized` right after the authorization call. |
| RelationProjection.LiveCount | RapidCMS/RapidCMS.Common/Data/CollectionDataProvider.cs:61-68 | The count of live subscriptions is zero exactly when none is live. |
| RelationProjection.ToElement | RapidCMS/RapidCMS.Common/Data/CollectionDataProvider.cs:79-83 | An element carries the entity's id and one label per label property, in their order. |
| RelationProjection.Project | RapidCMS/RapidCMS.Common/Data/CollectionDataProvider.cs:78-84 | One element per loaded entity, in the repository's order. |
| RelationProjection.Release | RapidCMS/RapidCMS.Common/Data/CollectionDataProvider.cs:61 | Disposing a handle ends that subscription and no other. |
| RelationProjection.SetElements | RapidCMS/RapidCMS.Common/Data/CollectionDataProvider.cs:54-85 | Nothing happens without a bound entity. Otherwise it disposes the previous subscription, registers one new live one, and loads the snapshot for the entity's parent id. It keeps the invariant. |
| RelationProjection.SetEntity | RapidCMS/RapidCMS.Common/Data/CollectionDataProvider.cs:47-52 | It binds the entity and loads its snapshot. Afterwards exactly one subscription is live. |
| RelationProjection.ExtractRelatedIds | RapidCMS/RapidCMS.Common/Data/CollectionDataProvider.cs:93-116 | A value typed `ICollection<IEntity>` gives its entities' ids in order, and one typed `ICollection<object>` is used as is. Any other enumerable gives its non-null items in order. Anything else throws `InvalidOperation`. |
| RelationProjection.UpdateRelatedElements | RapidCMS/RapidCMS.Common/Data/CollectionDataProvider.cs:121-124 | The selection becomes the snapshot elements whose id is related, in snapshot order, with every copy the snapshot holds. It equals what `GetRelatedElementsAsync` computes and stays null without a snapshot. Nothing else changes. |
| RelationProjection.SetRelationMetadata | RapidCMS/RapidCMS.Common/Data/CollectionDataProvider.cs:87-119 | The entity is always bound and its snapshot loaded, even when the relation value's shape then throws. On success the ids are extracted and the selection equals the related elements. |
| RelationProjection.GetAvailableElements | RapidCMS/RapidCMS.Common/Data/CollectionDataProvider.cs:126-129 | Returns the snapshot, or an empty sequence before one is loaded. |
| RelationProjection.GetRelatedElements | RapidCMS/RapidCMS.Common/Data/CollectionDataProvider.cs:131-138 | Exactly the snapshot elements whose id is related, as a subsequence of the available elements with their multiplicities. Empty when either is unset. |
| RelationProjection.GetCurrentRelatedElements | RapidCMS/RapidCMS.Common/Data/CollectionDataProvider.cs:159-162 | Returns the current selection, or empty when it is unset. |
| RelationProjection.AddElement | RapidCMS/RapidCMS.Common/Data/CollectionDataProvider.cs:140-145 | No-op while the selection is unset. Otherwise it appends, without dedup, the first snapshot element with the option's id, and the selection grows by exactly one. With no matching element it throws and changes nothing. On a valid provider it never reaches a null snapshot. |
| RelationProjection.RemoveElement | RapidCMS/RapidCMS.Common/Data/CollectionDataProvider.cs:146-149 | Removes every entry with the option's id and keeps the others in order and multiplicity. No-op while the selection is unset. |
| RelationProjection.SetElement | RapidCMS/RapidCMS.Common/Data/CollectionDataProvider.cs:151-157 | The selection becomes exactly the first snapshot element with the option's id. When the lookup throws, the selection is left cleared. |
| RelationProjection.Dispose | RapidCMS/RapidCMS.Common/Data/CollectionDataProvider.cs:169-172 | Releases the subscription: no subscription is live afterwards, and nothing else changes. |
| RelationProjection.OnChange | RapidCMS/RapidCMS.Common/Data/CollectionDataProvider.cs:62-68 | Only a live subscription fires. It reloads the snapshot and raises `OnDataChange`; a disposed one leaves the provider untouched. |
| ProjectionProperties.AtMostOneSubscription | RapidCMS/RapidCMS.Common/Data/CollectionDataProvider.cs:61-68 | At most one subscription is live, and if one is, it is the last one registered. |
| ProjectionProperties.OperationsPreserveValid | RapidCMS/RapidCMS.Common/Data/CollectionDataProvider.cs:29-172 | The provider invariant holds initially and is kept by every operation. |
| ProjectionProperties.NoNullSnapshot | RapidCMS/RapidCMS.Common/Data/CollectionDataProvider.cs:140-157 | On a valid provider, adding and setting never run the snapshot lookup on a null snapshot, so they never throw `ArgumentNullException`. |
| ProjectionProperties.RemoveAppended | RapidCMS/RapidCMS.Common/Data/CollectionDataProvider.cs:140-149 | On the list itself: removing by id after appending an entry with an id the list did not hold gives back the list. |
| ProjectionProperties.AddThenRemove | RapidCMS/RapidCMS.Common/Data/CollectionDataProvider.cs:140-149 | Adding an option whose id is not selected and then removing it restores the provider exactly. |
| ProjectionProperties.RemoveIdempotent | RapidCMS/RapidCMS.Common/Data/CollectionDataProvider.cs:146-149 | Removing twice is removing once. |
| ProjectionProperties.SetElementIsClearThenAdd | RapidCMS/RapidCMS.Common/Data/CollectionDataProvider.cs:151-157 | Setting is clearing and then adding, both in the state it leaves and in how it throws. |
| ProjectionProperties.MetadataSyncsSelection | RapidCMS/RapidCMS.Common/Data/CollectionDataProvider.cs:87-124 | After a successful metadata update, the current selection equals the related elements and is a subsequence of the new snapshot. |
| ProjectionProperties.ChangeRefreshesSnapshot | RapidCMS/RapidCMS.Common/Data/CollectionDataProvider.cs:62-84 | A change notification reloads the snapshot, which `GetRelatedElementsAsync` then follows, but keeps the current selection and the related ids. One subscription stays live. |
| ProjectionProperties.ReloadRetiresOldSubscription | RapidCMS/RapidCMS.Common/Data/CollectionDataProvider.cs:61-62 | After a reload, the previously live subscription no longer fires. |
| ProjectionProperties.DisposeSilences | RapidCMS/RapidCMS.Common/Data/CollectionDataProvider.cs:169-172 | After `Dispose` no notification fires, and disposing again changes nothing. |
| ProjectionProperties.RelatedIdsExample | RapidCMS/RapidCMS.Common/Data/CollectionDataProvider.cs:87-138 | Worked example: with a snapshot of ids 1, 2, 3 and related ids [3, 1], the selection is the elements for 1 and 3, in snapshot order. |

## Left out

- Async/await and exceptions are flattened: an exception is a `Failure`, or a `Threw` status together with the state it left.
- `_root.GetCollection`, `IHttpContextAccessor` and `IServiceProvider`. The collection is passed in; the user is implicit in `Env.authorize`.
- `Operations.GetOperationForCrudType`, both `GetEntityVariant` overloads, and `button.GetCrudType()`. Their code is not part of this model. The first two are total functions of `Env`; the CRUD type is a field of the button.
- `GetAllButtons()` is taken as the identity over the configured button list. Its nested-button flattening is not part of this model.
- `UriHelper` string formats become the structured `Route`. The `Constants` values are taken to be `"edit"`, `"new"`, `"add"`, `"view"`, `"list"`, `"pick"`; only their distinctness matters.
- The collection alias in routes and commands is `col.alias`. The source uses the `collectionAlias` argument it resolved the collection from, and the model takes `GetCollection(alias).Alias == alias`.
- `IUIService.GenerateNodeUIAsync` / `GenerateListUIAsync`: the model returns the request handed to them (`NodeRequest`, `ListRequest`), not the rendered UI.
- `EditContext.IsValid()` and `GenerateRelationContainer()` are inputs. A custom button's `HandleActionAsync` is only recorded, as a `CustomAction` event; what it does is not modelled.
- The repository's `InternalNewAsync` and `InternalInsertAsync` never return null in this model. A null from `InternalInsertAsync` makes the source throw `NullReferenceException` on `.Id` (`CollectionService.cs:173`, `398`, `646`). That path is not modelled.
- A pane's `Buttons` is never null in this model. A null one makes `SelectMany` throw inside the row button lookup (`CollectionService.cs:340`, `594`).
- RelationProjection.ExtractRelatedIds: an entity collection never holds a null entity in this model. The source would throw `NullReferenceException` on `x.Id` (`CollectionDataProvider.cs:95`).
- RelationProjection.ExtractRelatedIds: the shape of the relation value is an input, already classified, not the result of C#'s runtime `is` tests (`CollectionDataProvider.cs:93-101`). `ICollection<T>` is invariant in `T`, so a typed collection such as `List<Person>` with `Person : IEntity` is neither `ICollection<IEntity>` nor `ICollection<object>`. It takes the plain `IEnumerable` branch, so `_relatedIds` holds the entity objects themselves, and `Contains(x.Id)` (lines 123, 134) then finds no element related. `Obj` holds only boxed ids and null, so that outcome cannot be expressed here. The "collection of entities" case holds only for a value whose runtime type implements `ICollection<IEntity>`.
- RelationProjection.ExtractRelatedIds: an `ICollection<object>` is kept by reference (`CollectionDataProvider.cs:99`), so later changes the owner makes to that collection show up in `GetRelatedElementsAsync`. The model copies the ids when they are read, as the other two shapes do. Aliasing is not modelled.
- RelationProjection.GetCurrentRelatedElements: the source hands out the live `_relatedElements` list (`CollectionDataProvider.cs:161`), which later `Add`/`Remove`/`Set` calls change under the caller. The model returns a value. Aliasing is not modelled.
- `IMemoryCache` keying and expiry: the snapshot is "what `getAll` returns for the entity's parent id", passed in as a function. The `ChangeToken` callback is the explicit transition `RelationProjection.OnChange`.
- `GetRelatedEntityType` and the constructor's argument-null checks: the related type and the collaborators are not part of the model.
- Labels are strings evaluated when the element is built, not the lazy `IEnumerable<string>` the source stores.
- RelationProjection.HasId: `x.Id == option.Id` on `object` compares references in the source (`CollectionDataProvider.cs:142`, `148`, `154`), and `Contains` compares with `Equals`. Both are modelled as value equality on `Obj`. The two agree for an option taken from the current snapshot when the snapshot's ids are unique. They can disagree for an option from an earlier snapshot, such as one in the selection after a change notification, and for distinct boxed ids that are equal by value. Boxing is not modelled.
- The configuration builder, the default-button enum and the middleware registration hold no decision logic and are not part of this model.

## Notes on the code as written

The model follows the code as written. Some of its behaviour is easy to miss:
- A change notification reloads the snapshot only. `GetRelatedElementsAsync` recomputes from the new snapshot on every call. The current selection (`GetCurrentRelatedElements`) is not recomputed until the next `SetRelationMetadataAsync`; see `ProjectionProperties.ChangeRefreshesSnapshot`.
- An unrecognised action name makes `MapActionToOperation` throw `InvalidOperationException` (`CollectionService.cs:67`). The list views call it before authorization, so such an action stops there.
- A missing button throws a plain `Exception` (`CollectionService.cs:127-130`). The model names it `ButtonNotFound`.
- `GetRelationListViewAsync` passes the collection alias where `InternalNewAsync` expects a parent id (`CollectionService.cs:427`).
- The node dispatcher throws `NotImplemented` for `Return`. The relation row dispatcher has no `Return` case at all, so it throws `InvalidOperation`.
- `SetRelationMetadataAsync` binds the entity and reloads the snapshot before it can throw on an unsupported relation value.
- `SetElementAsync` clears the selection before the lookup that may throw.

=== FILE: common.dfy ===
/**
  Shared vocabulary of the model: nullable values, results, the exceptions the
  core raises, and entities as the persistence layer hands them out.
 */
module Common {

  /** A nullable reference: `None` stands for C#'s `null`. */
  datatype Option<+T> = None | Some(value: T) {

    /** The value, or `default` when null (C#'s `??`). */
    function GetOr(default: T): T {
      match this
      case Some(v) => v
      case None => default
    }
  }

  /** A computation that either produced a value or threw one of the core's exceptions. */
  datatype Result<+T> = Success(value: T) | Failure(error: Error)

  /** Why an `InvalidOperationException` was thrown. */
  datatype Cause =
    | UnknownAction             // an action name outside the six action constants
    | MissingConfiguration      // the collection has no UI configuration for the action
    | MissingId                 // an id that the CRUD effect needs is null
    | MetadataNotVariant        // a Create button whose metadata is not an entity variant
    | UnsupportedCrudType       // the default branch of a switch over CrudType
    | NoMatchingElement         // `First` found no snapshot element with the requested id
    | UnsupportedRelationShape  // the relation property is not enumerable

  /** The exceptions of the core, one constructor per exception type. */
  datatype Error =
    | ButtonNotFound            // plain `Exception`: no button has the fired id
    | EntityNotFound            // plain `Exception`: the repository produced no entity
    | Unauthorized              // `UnauthorizedAccessException`
    | InvalidEntity             // `InvalidEntityException`
    | NotImplemented            // `NotImplementedException`
    | ArgumentNull              // `ArgumentNullException`: `First` over a null list
    | InvalidOperation(cause: Cause)

  /**
    An entity: its (nullable) string id and an opaque handle standing for the
    rest of the record, which the core never inspects.
   */
  datatype Entity = Entity(id: Option<string>, record: nat)
}

=== FILE: config.dfy ===
/** The CRUD effect a button declares. */
module Crud {
  datatype CrudType = View | Read | Create | Update | Insert | Delete | Add | Remove | Pick | Return | Refresh | None

  /** The effects that write through the repository in at least one dispatcher. */
  predicate Mutates(c: CrudType) {
    c in {Update, Insert, Delete, Pick, Remove}
  }
}

/**
  The declarative configuration the dispatchers read: entity variants,
  buttons and the node/list UI configurations of a collection.
 */
module Config {
  import opened Common
  import Crud
  import Sequences

  /** A (type, alias) pair naming one sub-type of the collection's entities. */
  datatype EntityVariant = EntityVariant(alias: string, typeTag: nat)

  /** A button's free-form metadata; Create buttons carry the variant to create. */
  datatype ButtonMetadata = NoMetadata | VariantMetadata(variant: EntityVariant) | OtherMetadata

  /**
    A configured button: its id, the effect `GetCrudType()` reports, whether it
    needs a valid form, its metadata, and whether it is a `CustomButton`
    whose callback runs before the effect.
   */
  datatype Button = Button(
    buttonId: string,
    crudType: Crud.CrudType,
    requiresValidForm: bool,
    metadata: ButtonMetadata,
    isCustom: bool)

  /** An editor or view pane; each pane has its own buttons. */
  datatype Pane = Pane(buttons: seq<Button>)

  /** Node view / node editor configuration. */
  datatype NodeConfig = NodeConfig(buttons: Option<seq<Button>>)

  /** List view configuration: collection-level buttons and the per-row view pane. */
  datatype ListView = ListView(buttons: Option<seq<Button>>, viewPane: Option<Pane>)

  /** List editor configuration: collection-level buttons and the per-row editor panes. */
  datatype ListEditor = ListEditor(buttons: Option<seq<Button>>, editorPanes: Option<seq<Pane>>)

  /** A registered collection and the UI configurations it may have. */
  datatype Collection = Collection(
    alias: string,
    entityVariant: EntityVariant,
    nodeView: Option<NodeConfig>,
    nodeEditor: Option<NodeConfig>,
    listView: Option<ListView>,
    listEditor: Option<ListEditor>)

  /**
    Button lookup (`buttons?.GetAllButtons().FirstOrDefault(x => x.ButtonId == actionId)`):
    the first button with the fired id, or none when the list is null or no
    button has that id.
   */
  function FindButton(buttons: Option<seq<Button>>, actionId: string): (r: Option<Button>)
    ensures r.None? <==> buttons.None? || forall b :: b in buttons.value ==> b.buttonId != actionId
    ensures r.Some? ==> buttons.Some? && r.value.buttonId == actionId
                        && exists i :: 0 <= i < |buttons.value| && buttons.value[i] == r.value
                                       && forall j :: 0 <= j < i ==> buttons.value[j].buttonId != actionId
  {
    match buttons
    case None => None
    case Some(bs) => Sequences.First(bs, (b: Button) => b.buttonId == actionId)
  }

  /** `SelectMany(pane => pane.Buttons)`: the buttons of all panes, pane by pane. */
  function PaneButtons(panes: seq<Pane>): (r: seq<Button>)
    ensures forall b :: b in r <==> exists p :: p in panes && b in p.buttons
  {
    if |panes| == 0 then []
    else
      var rest := PaneButtons(panes[1..]);
      assert forall p :: p in panes <==> p == panes[0] || p in panes[1..];
      panes[0].buttons + rest
  }

  /** A single pane contributes exactly its own buttons. */
  lemma PaneButtonsOne(p: Pane)
    ensures PaneButtons([p]) == p.buttons
  {
    assert [p][1..] == [];
  }

  /**
    `SelectMany` keeps the panes' order: the buttons of two runs of panes are
    the first run's followed by the second's. So a lookup over all panes finds
    a button of an earlier pane before any button of a later one.
   */
  lemma {:induction false} PaneButtonsInOrder(a: seq<Pane>, b: seq<Pane>)
    ensures PaneButtons(a + b) == PaneButtons(a) + PaneButtons(b)
    decreases |a|
  {
    if |a| == 0 {
      assert a + b == b;
    } else {
      assert (a + b)[1..] == a[1..] + b;
      PaneButtonsInOrder(a[1..], b);
    }
  }

  /**
    Looking a button up over all panes finds it in the first pane that has a
    button with that id, and only looks at later panes when no earlier one
    has one.
   */
  lemma FindButtonEarliestPane(a: seq<Pane>, b: seq<Pane>, actionId: string)
    ensures FindButton(Some(PaneButtons(a + b)), actionId)
            == if FindButton(Some(PaneButtons(a)), actionId).Some? then FindButton(Some(PaneButtons(a)), actionId)
               else FindButton(Some(PaneButtons(b)), actionId)
  {
    PaneButtonsInOrder(a, b);
    Sequences.FirstConcat(PaneButtons(a), PaneButtons(b), (x: Button) => x.buttonId == actionId);
  }
}

=== FILE: dispatch_lemmas.dfy ===
/**
  What each dispatcher does for each CRUD type once the fired button has
  passed its checks: the command it returns and the repository calls it
  makes after the authorization (and the custom callback, for a custom
  button).
 */
module DispatchProperties {
  import opened Common
  import opened Config
  import opened Intents
  import Crud
  import U = Usage
  import N = NodeService
  import L = ListService
  import R = RelationService

  /** The checks let `b` through: its operation is granted, and a checked form does not block it. */
  predicate Passes(env: Env, subject: Entity, b: Button, formValid: Option<bool>) {
    env.authorize(subject, env.operationFor(b.crudType)) && !(b.requiresValidForm && formValid == Some(false))
  }

  /** The calls a passed check makes: the granted authorization, then a custom button's callback. */
  function Checked(env: Env, subject: Entity, b: Button, callback: Event): seq<Event> {
    [AuthorizeButton(env, subject, b)] + (if b.isCustom then [callback] else [])
  }

  /** Saving a node updates the entity under its id and reloads; without an id it throws before writing. */
  lemma NodeUpdateSaves(env: Env, col: Collection, variantAlias: string, parentId: Option<string>,
                          id: Option<string>, ctx: EditContext, actionId: string,
                          customData: Option<Payload>, b: Button)
    requires FindButton(N.NodeEditorButtons(col), actionId) == Some(b) && b.crudType == Crud.Update
    requires Passes(env, ctx.entity, b, Some(ctx.isValid))
    ensures var o := N.ProcessNodeEditorAction(env, col, variantAlias, parentId, id, ctx, actionId, customData);
            var checked := Checked(env, ctx.entity, b, CustomAction(parentId, id, customData));
            && (id.Some? ==> o == Outcome(Success(ReloadCommand),
                                          checked + [RepoUpdate(id.value, parentId, ctx.entity, ctx.relations)]))
            && (id.None? ==> o == Outcome(Failure(InvalidOperation(MissingId)), checked))
  {
  }

  /** Inserting a node inserts the entity and navigates to the editor of the inserted entity. */
  lemma NodeInsertNavigates(env: Env, col: Collection, variantAlias: string, parentId: Option<string>,
                              id: Option<string>, ctx: EditContext, actionId: string,
                              customData: Option<Payload>, b: Button)
    requires FindButton(N.NodeEditorButtons(col), actionId) == Some(b) && b.crudType == Crud.Insert
    requires Passes(env, ctx.entity, b, Some(ctx.isValid))
    ensures var o := N.ProcessNodeEditorAction(env, col, variantAlias, parentId, id, ctx, actionId, customData);
            var inserted := env.repository.insert(parentId, ctx.entity, ctx.relations);
            o == Outcome(Success(NavigateCommand(NodeRoute(U.EditAction, col.alias, env.variantByAlias(Some(variantAlias)),
                                                           parentId, inserted.id))),
                         Checked(env, ctx.entity, b, CustomAction(parentId, id, customData))
                         + [RepoInsert(parentId, ctx.entity, ctx.relations)])
  {
  }

  /** Deleting a node deletes it and navigates to the collection's list; without an id it throws before writing. */
  lemma NodeDeleteNavigates(env: Env, col: Collection, variantAlias: string, parentId: Option<string>,
                              id: Option<string>, ctx: EditContext, actionId: string,
                              customData: Option<Payload>, b: Button)
    requires FindButton(N.NodeEditorButtons(col), actionId) == Some(b) && b.crudType == Crud.Delete
    requires Passes(env, ctx.entity, b, Some(ctx.isValid))
    ensures var o := N.ProcessNodeEditorAction(env, col, variantAlias, parentId, id, ctx, actionId, customData);
            var checked := Checked(env, ctx.entity, b, CustomAction(parentId, id, customData));
            && (id.Some? ==> o == Outcome(Success(NavigateCommand(CollectionRoute(U.ListAction, col.alias, parentId))),
                                          checked + [RepoDelete(id.value, parentId)]))
            && (id.None? ==> o == Outcome(Failure(InvalidOperation(MissingId)), checked))
  {
  }

  /** A node button of type `Return` is not implemented: it throws, and nothing is written. */
  lemma NodeReturnNotImplemented(env: Env, col: Collection, variantAlias: string, parentId: Option<string>,
                                   id: Option<string>, ctx: EditContext, actionId: string,
                                   customData: Option<Payload>, b: Button)
    requires FindButton(N.NodeEditorButtons(col), actionId) == Some(b) && b.crudType == Crud.Return
    ensures var o := N.ProcessNodeEditorAction(env, col, variantAlias, parentId, id, ctx, actionId, customData);
            && o.result.Failure? && o.result.error in {Unauthorized, InvalidEntity, NotImplemented}
            && forall i :: 0 <= i < |o.trace| ==> !IsMutation(o.trace[i])
  {
  }

  /**
    The remaining node outcomes: `None` does nothing, `Refresh` reloads, and
    `View`/`Read` navigate to the node's view and edit routes; none of them
    writes. Every CRUD type the node editor does not handle throws.
   */
  lemma NodeOtherOutcomes(env: Env, col: Collection, variantAlias: string, parentId: Option<string>,
                            id: Option<string>, ctx: EditContext, actionId: string,
                            customData: Option<Payload>, b: Button)
    requires FindButton(N.NodeEditorButtons(col), actionId) == Some(b)
    requires b.crudType !in {Crud.Update, Crud.Insert, Crud.Delete, Crud.Return}
    requires Passes(env, ctx.entity, b, Some(ctx.isValid))
    ensures var o := N.ProcessNodeEditorAction(env, col, variantAlias, parentId, id, ctx, actionId, customData);
            var variant := env.variantByAlias(Some(variantAlias));
            && o.trace == Checked(env, ctx.entity, b, CustomAction(parentId, id, customData))
            && (b.crudType == Crud.None ==> o.result == Success(NoOperationCommand))
            && (b.crudType == Crud.Refresh ==> o.result == Success(ReloadCommand))
            && (b.crudType == Crud.View ==>
                  o.result == Success(NavigateCommand(NodeRoute(U.ViewAction, col.alias, variant, parentId, id))))
            && (b.crudType == Crud.Read ==>
                  o.result == Success(NavigateCommand(NodeRoute(U.EditAction, col.alias, variant, parentId, id))))
            && (b.crudType in {Crud.Create, Crud.Add, Crud.Remove, Crud.Pick} ==>
                  o.result == Failure(InvalidOperation(UnsupportedCrudType)))
  {
  }

  /** A collection-level `Create` button without a variant as its metadata throws after the checks, in both families. */
  lemma CreateNeedsVariant(env: Env, col: Collection, action: string, parentId: Option<string>,
                             related: Entity, actionId: string, customData: Option<Payload>, b: Button)
    requires b.crudType == Crud.Create && !b.metadata.VariantMetadata?
    ensures FindButton(L.ListButtons(col, U.MapActionToUsageType(action)), actionId) == Some(b)
            && Passes(env, env.repository.newEntity(parentId, col.entityVariant.typeTag), b, None) ==>
              L.ProcessListAction(env, col, action, parentId, actionId, customData).result
              == Failure(InvalidOperation(MetadataNotVariant))
    ensures FindButton(R.RelationButtons(col, U.MapActionToUsageType(action)), actionId) == Some(b)
            && Passes(env, env.repository.newEntity(None, col.entityVariant.typeTag), b, None) ==>
              R.ProcessRelationAction(env, col, action, related, actionId, customData).result
              == Failure(InvalidOperation(MetadataNotVariant))
  {
  }

  /** Only the `list` action selects the `List` flag. */
  lemma OnlyListSelectsList(action: string)
    ensures U.List in U.MapActionToUsageType(action) <==> action == U.ListAction
  {
    if action in U.Actions {
      U.ActionNameRoundTrip(action);
    }
  }

  /**
    Creating from a collection: from the list view (a `list` action) it
    navigates to the node editor of a new entity of the button's variant;
    for every other action it switches the caller's parameters to `new` for
    that variant.
   */
  lemma ListCreate(env: Env, col: Collection, action: string, parentId: Option<string>,
                   actionId: string, customData: Option<Payload>, b: Button, variant: EntityVariant)
    requires FindButton(L.ListButtons(col, U.MapActionToUsageType(action)), actionId) == Some(b)
    requires b.crudType == Crud.Create && b.metadata == VariantMetadata(variant)
    requires Passes(env, env.repository.newEntity(parentId, col.entityVariant.typeTag), b, None)
    ensures var o := L.ProcessListAction(env, col, action, parentId, actionId, customData);
            && o.trace == [RepoNew(parentId, col.entityVariant.typeTag)]
                          + Checked(env, env.repository.newEntity(parentId, col.entityVariant.typeTag), b,
                                    CustomAction(parentId, None, customData))
            && (action == U.ListAction ==>
                  o.result == Success(NavigateCommand(NodeRoute(U.NewAction, col.alias, variant, parentId, None))))
            && (action != U.ListAction ==>
                  o.result == Success(UpdateParameterCommand(U.NewAction, col.alias, Some(variant.alias), parentId, None)))
  {
    OnlyListSelectsList(action);
  }

  /**
    Creating from a relation list: like a list's `Create`, without a parent
    id. From a `list` action it navigates to the node editor of a new entity
    of the button's variant; for every other action, `add` included, it
    switches the caller's parameters to `new` for that variant.
   */
  lemma RelationCreate(env: Env, col: Collection, action: string, related: Entity,
                       actionId: string, customData: Option<Payload>, b: Button, variant: EntityVariant)
    requires FindButton(R.RelationButtons(col, U.MapActionToUsageType(action)), actionId) == Some(b)
    requires b.crudType == Crud.Create && b.metadata == VariantMetadata(variant)
    requires Passes(env, env.repository.newEntity(None, col.entityVariant.typeTag), b, None)
    ensures var o := R.ProcessRelationAction(env, col, action, related, actionId, customData);
            && o.trace == [RepoNew(None, col.entityVariant.typeTag)]
                          + Checked(env, env.repository.newEntity(None, col.entityVariant.typeTag), b,
                                    CustomAction(None, None, customData))
            && (action == U.ListAction ==>
                  o.result == Success(NavigateCommand(NodeRoute(U.NewAction, col.alias, variant, None, None))))
            && (action != U.ListAction ==>
                  o.result == Success(UpdateParameterCommand(U.NewAction, col.alias, Some(variant.alias), None, None)))
  {
    OnlyListSelectsList(action);
  }

  /** Inserting from a list row inserts the entity and reopens the editor on the inserted id. */
  lemma ListRowInsert(env: Env, col: Collection, action: string, parentId: Option<string>, id: string,
                        ctx: EditContext, actionId: string, customData: Option<Payload>, b: Button)
    requires FindButton(L.ListRowButtons(col, U.MapActionToUsageType(action)), actionId) == Some(b)
    requires b.crudType == Crud.Insert && Passes(env, ctx.entity, b, Some(ctx.isValid))
    ensures var o := L.ProcessListRowAction(env, col, action, parentId, id, ctx, actionId, customData);
            var inserted := env.repository.insert(parentId, ctx.entity, ctx.relations);
            o == Outcome(Success(UpdateParameterCommand(U.NewAction, col.alias, Some(env.variantOf(ctx.entity).alias),
                                                        parentId, inserted.id)),
                         Checked(env, ctx.entity, b, CustomAction(parentId, Some(id), customData))
                         + [RepoInsert(parentId, ctx.entity, ctx.relations)])
  {
  }

  /** Saving a list row updates that row's entity under the parent and reloads the list. */
  lemma ListRowUpdate(env: Env, col: Collection, action: string, parentId: Option<string>, id: string,
                      ctx: EditContext, actionId: string, customData: Option<Payload>, b: Button)
    requires FindButton(L.ListRowButtons(col, U.MapActionToUsageType(action)), actionId) == Some(b)
    requires b.crudType == Crud.Update && Passes(env, ctx.entity, b, Some(ctx.isValid))
    ensures L.ProcessListRowAction(env, col, action, parentId, id, ctx, actionId, customData)
            == Outcome(Success(ReloadCommand),
                       Checked(env, ctx.entity, b, CustomAction(parentId, Some(id), customData))
                       + [RepoUpdate(id, parentId, ctx.entity, ctx.relations)])
  {
  }

  /**
    The list buttons that write nothing: `None` does nothing, `Refresh`
    reloads, `Return` returns, and `View`/`Read` (rows only) navigate to the
    row's view and edit routes; at collection level every type other than
    these and `Create` throws.
   */
  lemma ListOtherOutcomes(env: Env, col: Collection, action: string, parentId: Option<string>, id: string,
                          ctx: EditContext, actionId: string, customData: Option<Payload>, b: Button)
    requires b.crudType !in {Crud.Create, Crud.Update, Crud.Insert, Crud.Delete}
    ensures var blank := env.repository.newEntity(parentId, col.entityVariant.typeTag);
            FindButton(L.ListButtons(col, U.MapActionToUsageType(action)), actionId) == Some(b) && Passes(env, blank, b, None) ==>
              var o := L.ProcessListAction(env, col, action, parentId, actionId, customData);
              && o.trace == [RepoNew(parentId, col.entityVariant.typeTag)] + Checked(env, blank, b, CustomAction(parentId, None, customData))
              && (b.crudType == Crud.None ==> o.result == Success(NoOperationCommand))
              && (b.crudType == Crud.Refresh ==> o.result == Success(ReloadCommand))
              && (b.crudType == Crud.Return ==> o.result == Success(ReturnCommand))
              && (b.crudType !in {Crud.None, Crud.Refresh, Crud.Return} ==> o.result == Failure(InvalidOperation(UnsupportedCrudType)))
    ensures FindButton(L.ListRowButtons(col, U.MapActionToUsageType(action)), actionId) == Some(b)
            && Passes(env, ctx.entity, b, Some(ctx.isValid)) ==>
              var o := L.ProcessListRowAction(env, col, action, parentId, id, ctx, actionId, customData);
              var variant := env.variantOf(ctx.entity);
              && o.trace == Checked(env, ctx.entity, b, CustomAction(parentId, Some(id), customData))
              && (b.crudType == Crud.None ==> o.result == Success(NoOperationCommand))
              && (b.crudType == Crud.Refresh ==> o.result == Success(ReloadCommand))
              && (b.crudType == Crud.Return ==> o.result == Success(ReturnCommand))
              && (b.crudType == Crud.View ==>
                    o.result == Success(NavigateCommand(NodeRoute(U.ViewAction, col.alias, variant, parentId, Some(id)))))
              && (b.crudType == Crud.Read ==>
                    o.result == Success(NavigateCommand(NodeRoute(U.EditAction, col.alias, variant, parentId, Some(id)))))
              && (b.crudType in {Crud.Add, Crud.Remove, Crud.Pick} ==> o.result == Failure(InvalidOperation(UnsupportedCrudType)))
  {
  }

  /** Deleting from a list row deletes that row's entity and reloads the list. */
  lemma ListRowDelete(env: Env, col: Collection, action: string, parentId: Option<string>, id: string,
                        ctx: EditContext, actionId: string, customData: Option<Payload>, b: Button)
    requires FindButton(L.ListRowButtons(col, U.MapActionToUsageType(action)), actionId) == Some(b)
    requires b.crudType == Crud.Delete && Passes(env, ctx.entity, b, Some(ctx.isValid))
    ensures L.ProcessListRowAction(env, col, action, parentId, id, ctx, actionId, customData)
            == Outcome(Success(ReloadCommand),
                       Checked(env, ctx.entity, b, CustomAction(parentId, Some(id), customData)) + [RepoDelete(id, parentId)])
  {
  }

  /** The relation list's `Add` button switches the caller to picking, without a repository write. */
  lemma RelationAddSwitchesToPicking(env: Env, col: Collection, action: string, related: Entity,
                                       actionId: string, customData: Option<Payload>, b: Button)
    requires FindButton(R.RelationButtons(col, U.MapActionToUsageType(action)), actionId) == Some(b)
    requires b.crudType == Crud.Add && Passes(env, env.repository.newEntity(None, col.entityVariant.typeTag), b, None)
    ensures var o := R.ProcessRelationAction(env, col, action, related, actionId, customData);
            && o.result == Success(UpdateParameterCommand(U.AddAction, col.alias, None, None, None))
            && o.trace == [RepoNew(None, col.entityVariant.typeTag)]
                          + Checked(env, env.repository.newEntity(None, col.entityVariant.typeTag), b,
                                    CustomAction(None, None, customData))
  {
  }

  /**
    Inserting from a relation row inserts the entity without a parent and then
    relates the inserted entity to the owner.
   */
  lemma RelationRowInsertRelates(env: Env, col: Collection, action: string, related: Entity, id: string,
                                   ctx: EditContext, actionId: string, customData: Option<Payload>,
                                   b: Button)
    requires FindButton(R.RelationRowButtons(col, U.MapActionToUsageType(action)), actionId) == Some(b)
    requires b.crudType == Crud.Insert && Passes(env, ctx.entity, b, Some(ctx.isValid))
    ensures var o := R.ProcessRelationRowAction(env, col, action, related, id, ctx, actionId, customData);
            var inserted := env.repository.insert(None, ctx.entity, ctx.relations);
            && o.result == Success(UpdateParameterCommand(U.NewAction, col.alias, Some(env.variantOf(ctx.entity).alias),
                                                          None, inserted.id))
            && o.trace == Checked(env, ctx.entity, b, CustomAction(None, Some(id), customData))
                          + [RepoInsert(None, ctx.entity, ctx.relations), RepoAdd(related, inserted.id)]
  {
  }

  /** Saving or deleting a relation row writes that row's entity without a parent and reloads. */
  lemma RelationRowUpdateDelete(env: Env, col: Collection, action: string, related: Entity, id: string,
                                ctx: EditContext, actionId: string, customData: Option<Payload>, b: Button)
    requires FindButton(R.RelationRowButtons(col, U.MapActionToUsageType(action)), actionId) == Some(b)
    requires b.crudType in {Crud.Update, Crud.Delete} && Passes(env, ctx.entity, b, Some(ctx.isValid))
    ensures var o := R.ProcessRelationRowAction(env, col, action, related, id, ctx, actionId, customData);
            var checked := Checked(env, ctx.entity, b, CustomAction(None, Some(id), customData));
            && o.result == Success(ReloadCommand)
            && (b.crudType == Crud.Update ==> o.trace == checked + [RepoUpdate(id, None, ctx.entity, ctx.relations)])
            && (b.crudType == Crud.Delete ==> o.trace == checked + [RepoDelete(id, None)])
  {
  }

  /**
    The relation buttons that write nothing: `None` does nothing and `Refresh`
    reloads; at collection level `Return` returns, and on a row `View`/`Read`
    navigate to the row's view and edit routes without a parent. Every other
    non-writing type throws.
   */
  lemma RelationOtherOutcomes(env: Env, col: Collection, action: string, related: Entity, id: string,
                              ctx: EditContext, actionId: string, customData: Option<Payload>, b: Button)
    requires b.crudType !in {Crud.Create, Crud.Add, Crud.Update, Crud.Insert, Crud.Delete, Crud.Pick, Crud.Remove}
    ensures var blank := env.repository.newEntity(None, col.entityVariant.typeTag);
            FindButton(R.RelationButtons(col, U.MapActionToUsageType(action)), actionId) == Some(b) && Passes(env, blank, b, None) ==>
              var o := R.ProcessRelationAction(env, col, action, related, actionId, customData);
              && o.trace == [RepoNew(None, col.entityVariant.typeTag)] + Checked(env, blank, b, CustomAction(None, None, customData))
              && (b.crudType == Crud.None ==> o.result == Success(NoOperationCommand))
              && (b.crudType == Crud.Refresh ==> o.result == Success(ReloadCommand))
              && (b.crudType == Crud.Return ==> o.result == Success(ReturnCommand))
              && (b.crudType in {Crud.View, Crud.Read} ==> o.result == Failure(InvalidOperation(UnsupportedCrudType)))
    ensures FindButton(R.RelationRowButtons(col, U.MapActionToUsageType(action)), actionId) == Some(b)
            && Passes(env, ctx.entity, b, Some(ctx.isValid)) ==>
              var o := R.ProcessRelationRowAction(env, col, action, related, id, ctx, actionId, customData);
              var variant := env.variantOf(ctx.entity);
              && o.trace == Checked(env, ctx.entity, b, CustomAction(None, Some(id), customData))
              && (b.crudType == Crud.None ==> o.result == Success(NoOperationCommand))
              && (b.crudType == Crud.Refresh ==> o.result == Success(ReloadCommand))
              && (b.crudType == Crud.View ==>
                    o.result == Success(NavigateCommand(NodeRoute(U.ViewAction, col.alias, variant, None, Some(id)))))
              && (b.crudType == Crud.Read ==>
                    o.result == Success(NavigateCommand(NodeRoute(U.EditAction, col.alias, variant, None, Some(id)))))
              && (b.crudType == Crud.Return ==> o.result == Failure(InvalidOperation(UnsupportedCrudType)))
  {
  }

  /** Picking a relation row relates it to the owner; removing one unrelates it; both reload. */
  lemma RelationRowPickAndRemove(env: Env, col: Collection, action: string, related: Entity, id: string,
                                   ctx: EditContext, actionId: string, customData: Option<Payload>,
                                   b: Button)
    requires FindButton(R.RelationRowButtons(col, U.MapActionToUsageType(action)), actionId) == Some(b)
    requires b.crudType in {Crud.Pick, Crud.Remove} && Passes(env, ctx.entity, b, Some(ctx.isValid))
    ensures var o := R.ProcessRelationRowAction(env, col, action, related, id, ctx, actionId, customData);
            var checked := Checked(env, ctx.entity, b, CustomAction(None, Some(id), customData));
            && o.result == Success(ReloadCommand)
            && (b.crudType == Crud.Pick ==> o.trace == checked + [RepoAdd(related, Some(id))])
            && (b.crudType == Crud.Remove ==> o.trace == checked + [RepoRemove(related, id)])
  {
  }

  /**
    `Return` is handled by the list dispatchers but not by the relation row
    dispatcher, which throws for it without writing.
   */
  lemma ReturnOnlyFromLists(env: Env, col: Collection, action: string, parentId: Option<string>,
                              related: Entity, id: string, ctx: EditContext, actionId: string,
                              customData: Option<Payload>, b: Button)
    requires b.crudType == Crud.Return && Passes(env, ctx.entity, b, Some(ctx.isValid))
    ensures FindButton(L.ListRowButtons(col, U.MapActionToUsageType(action)), actionId) == Some(b) ==>
              L.ProcessListRowAction(env, col, action, parentId, id, ctx, actionId, customData).result
              == Success(ReturnCommand)
    ensures FindButton(R.RelationRowButtons(col, U.MapActionToUsageType(action)), actionId) == Some(b) ==>
              var o := R.ProcessRelationRowAction(env, col, action, related, id, ctx, actionId, customData);
              o == Outcome(Failure(InvalidOperation(UnsupportedCrudType)),
                           Checked(env, ctx.entity, b, CustomAction(None, Some(id), customData)))
  {
  }

  /** A denied authorization stops every row dispatcher right after the authorization call. */
  lemma DeniedRowActionsWriteNothing(env: Env, col: Collection, action: string, parentId: Option<string>,
                                       related: Entity, id: string, ctx: EditContext, actionId: string,
                                       customData: Option<Payload>, b: Button)
    requires !env.authorize(ctx.entity, env.operationFor(b.crudType))
    ensures FindButton(L.ListRowButtons(col, U.MapActionToUsageType(action)), actionId) == Some(b) ==>
              L.ProcessListRowAction(env, col, action, parentId, id, ctx, actionId, customData)
              == Outcome(Failure(Unauthorized), [AuthorizeButton(env, ctx.entity, b)])
    ensures FindButton(R.RelationRowButtons(col, U.MapActionToUsageType(action)), actionId) == Some(b) ==>
              R.ProcessRelationRowAction(env, col, action, related, id, ctx, actionId, customData)
              == Outcome(Failure(Unauthorized), [AuthorizeButton(env, ctx.entity, b)])
  {
  }
}

=== FILE: intents.dfy ===
/**
  What a dispatch produces and observes: view commands, the requests handed to
  the UI service, the collaborators it calls, and the trace of those calls.
 */
module Intents {
  import opened Common
  import opened Config
  import Crud
  import U = Usage
  import Op = Operations

  /** A route built by `UriHelper`; its string format is not part of this model. */
  datatype Route =
    | NodeRoute(action: string, collectionAlias: string, variant: EntityVariant, parentId: Option<string>, id: Option<string>)
    | CollectionRoute(action: string, collectionAlias: string, parentId: Option<string>)

  /** The `ViewCommand` a dispatcher returns to its caller. */
  datatype ViewCommand =
    | NavigateCommand(uri: Route)
    | ReloadCommand
    | UpdateParameterCommand(action: string, collectionAlias: string, variantAlias: Option<string>,
                             parentId: Option<string>, id: Option<string>)
    | ReturnCommand
    | NoOperationCommand

  /** What `GenerateRelationContainer` produced for the edit context: opaque. */
  datatype RelationContainer = RelationContainer(handle: nat)

  /** The untyped custom data passed to a custom button's callback: opaque. */
  datatype Payload = Payload(handle: nat)

  /**
    The caller's edit context, reduced to what the dispatchers read: the
    edited entity, what `IsValid()` answers, and the relation container.
   */
  datatype EditContext = EditContext(entity: Entity, isValid: bool, relations: RelationContainer)

  /** One call into a collaborator, in the order the dispatcher makes it. */
  datatype Event =
    | RepoNew(parentId: Option<string>, typeTag: nat)
    | RepoGetById(entityId: string, parentId: Option<string>)
    | RepoGetAll(parentId: Option<string>)
    | RepoGetAllRelated(related: Entity)
    | RepoGetAllNonRelated(related: Entity)
    | Authorize(resource: Entity, operation: Op.Operation, granted: bool)
    | CustomAction(parentId: Option<string>, id: Option<string>, data: Option<Payload>)
    | RepoUpdate(entityId: string, parentId: Option<string>, entity: Entity, relations: RelationContainer)
    | RepoInsert(parentId: Option<string>, entity: Entity, relations: RelationContainer)
    | RepoDelete(entityId: string, parentId: Option<string>)
    | RepoAdd(related: Entity, addedId: Option<string>)
    | RepoRemove(related: Entity, removedId: string)

  /** The repository: each read or write is a function of its arguments. */
  datatype Repository = Repository(
    newEntity: (Option<string>, nat) -> Entity,
    getById: (string, Option<string>) -> Option<Entity>,
    getAll: Option<string> -> seq<Entity>,
    getAllRelated: Entity -> seq<Entity>,
    getAllNonRelated: Entity -> seq<Entity>,
    insert: (Option<string>, Entity, RelationContainer) -> Entity)

  /**
    The collaborators of one request: the collection's repository, the
    authorization service's answer for the current user, and the helpers whose
    code is not part of this model (`Operations.GetOperationForCrudType` and
    the two `GetEntityVariant` overloads).
   */
  datatype Env = Env(
    repository: Repository,
    authorize: (Entity, Op.Operation) -> bool,
    operationFor: Crud.CrudType -> Op.Operation,
    variantByAlias: Option<string> -> EntityVariant,
    variantOf: Entity -> EntityVariant)

  /** A result together with the collaborator calls made to reach it. */
  datatype Outcome<T> = Outcome(result: Result<T>, trace: seq<Event>)

  /** One row handed to the UI service: an edit context for an entity. */
  datatype Row = Row(entity: Entity, variant: EntityVariant, usage: U.UsageType, editor: Option<ListEditor>)

  /** The UI configuration a list is rendered with. */
  datatype ListConfig = ViewConfig(view: ListView) | EditorConfig(editor: ListEditor)

  /** The arguments of `GenerateNodeUIAsync`. */
  datatype NodeRequest = NodeRequest(entity: Entity, variant: EntityVariant, usage: U.UsageType, config: NodeConfig)

  /** The arguments of `GenerateListUIAsync`. */
  datatype ListRequest = ListRequest(root: Row, rows: seq<Row>, config: ListConfig)

  /** A repository write. */
  predicate IsMutation(e: Event) {
    e.RepoUpdate? || e.RepoInsert? || e.RepoDelete? || e.RepoAdd? || e.RepoRemove?
  }

  /** A side effect: a repository write or a custom button's callback. */
  predicate IsEffect(e: Event) {
    IsMutation(e) || e.CustomAction?
  }

  predicate Granted(e: Event) {
    e.Authorize? && e.granted
  }

  predicate NoEffects(t: seq<Event>) {
    forall i :: 0 <= i < |t| ==> !IsEffect(t[i])
  }

  /** Every side effect in the trace comes after an authorization that was granted. */
  predicate EffectsAuthorized(t: seq<Event>) {
    forall i :: 0 <= i < |t| && IsEffect(t[i]) ==> exists j :: 0 <= j < i && Granted(t[j])
  }

  /** A trace without effects, then a granted authorization, then anything, is authorized. */
  lemma AuthorizedAfterGrant(pre: seq<Event>, a: Event, post: seq<Event>)
    requires NoEffects(pre)
    requires Granted(a)
    ensures EffectsAuthorized(pre + [a] + post)
  {
    var t := pre + [a] + post;
    forall i | 0 <= i < |t| && IsEffect(t[i])
      ensures exists j :: 0 <= j < i && Granted(t[j])
    {
      assert t[|pre|] == a;
    }
  }

  /** A trace without effects is trivially authorized. */
  lemma NoEffectsAuthorized(t: seq<Event>)
    requires NoEffects(t)
    ensures EffectsAuthorized(t)
  {
  }

  /** The authorization call a dispatcher makes for a button on a subject entity. */
  function AuthorizeButton(env: Env, subject: Entity, b: Button): (e: Event)
    ensures e.Authorize? && e.resource == subject && e.operation == env.operationFor(b.crudType)
    ensures Granted(e) <==> env.authorize(subject, env.operationFor(b.crudType))
  {
    var op := env.operationFor(b.crudType);
    Authorize(subject, op, env.authorize(subject, op))
  }

  /**
    The checks every dispatcher makes once it has found the button, in the
    source's order: authorize the subject under the button's operation, then,
    when the dispatcher checks the form (`formValid` is the answer of
    `IsValid()`), reject an invalid form on a button that requires a valid
    one, and finally run the custom button's callback.
   */
  function Gate(env: Env, subject: Entity, b: Button, formValid: Option<bool>, callback: Event): (o: Outcome<()>)
    requires callback.CustomAction?
    ensures |o.trace| >= 1 && o.trace[0] == AuthorizeButton(env, subject, b)
    ensures o.result == Failure(Unauthorized) <==> !Granted(o.trace[0])
    ensures o.result == Failure(InvalidEntity) <==>
              Granted(o.trace[0]) && b.requiresValidForm && formValid == Some(false)
    ensures o.result.Success? || o.result == Failure(Unauthorized) || o.result == Failure(InvalidEntity)
    ensures o.result.Failure? ==> o.trace == [o.trace[0]]
    ensures o.result.Success? ==> o.trace == [o.trace[0]] + (if b.isCustom then [callback] else [])
    ensures EffectsAuthorized(o.trace)
  {
    var auth := AuthorizeButton(env, subject, b);
    if !auth.granted then Outcome(Failure(Unauthorized), [auth])
    else if b.requiresValidForm && formValid == Some(false) then Outcome(Failure(InvalidEntity), [auth])
    else
      var t := [auth] + (if b.isCustom then [callback] else []);
      AuthorizedAfterGrant([], auth, if b.isCustom then [callback] else []);
      Outcome(Success(()), t)
  }

  /** A stage of a dispatch that runs after `prefix` was traced. */
  function Then<T>(prefix: seq<Event>, o: Outcome<T>): Outcome<T> {
    Outcome(o.result, prefix + o.trace)
  }

  /**
    The ordering contract shared by every dispatcher. `found` is the button the
    lookup found, `prefix` the calls made between the lookup and authorization,
    `formValid` the form's validity when the dispatcher checks it. A missing
    button fails before any collaborator call; otherwise authorization is the
    first call after `prefix`; a denial raises `Unauthorized` (and never
    `InvalidEntity`); an invalid form raises `InvalidEntity` only after a
    grant; no failed lookup or check leaves a side effect; and every side
    effect follows a granted authorization.
   */
  predicate DispatchContract<T>(o: Outcome<T>, env: Env, subject: Entity, found: Option<Button>,
                                formValid: Option<bool>, prefix: seq<Event>)
  {
    && (found.None? <==> o.result == Failure(ButtonNotFound))
    && (found.None? ==> o.trace == [])
    && (found.Some? ==> |o.trace| > |prefix| && o.trace[..|prefix| + 1] == prefix + [AuthorizeButton(env, subject, found.value)])
    && (o.result == Failure(Unauthorized) <==>
          found.Some? && !Granted(AuthorizeButton(env, subject, found.value)))
    && (o.result == Failure(InvalidEntity) <==>
          found.Some? && Granted(AuthorizeButton(env, subject, found.value))
          && found.value.requiresValidForm && formValid == Some(false))
    && (o.result.Failure? && o.result.error in {ButtonNotFound, Unauthorized, InvalidEntity} ==> NoEffects(o.trace))
    && EffectsAuthorized(o.trace)
  }

  /**
    Running an effect stage after a passed gate: the combined outcome keeps
    the gate's ordering contract, provided the stage itself raises none of the
    gate's errors.
   */
  function Dispatch<T>(env: Env, subject: Entity, found: Option<Button>, formValid: Option<bool>,
                       prefix: seq<Event>, callback: Event, effect: Button -> Outcome<T>): (o: Outcome<T>)
    requires callback.CustomAction?
    requires NoEffects(prefix)
    requires forall b :: effect(b).result.Failure? ==> effect(b).result.error !in {ButtonNotFound, Unauthorized, InvalidEntity}
    ensures DispatchContract(o, env, subject, found, formValid, prefix)
    ensures found.Some? && Gate(env, subject, found.value, formValid, callback).result.Success? ==>
              o == Then(prefix + Gate(env, subject, found.value, formValid, callback).trace, effect(found.value))
  {
    match found
    case None => Outcome(Failure(ButtonNotFound), [])
    case Some(b) =>
      var gate := Gate(env, subject, b, formValid, callback);
      var auth := AuthorizeButton(env, subject, b);
      if gate.result.Failure? then
        assert NoEffects(prefix + gate.trace);
        NoEffectsAuthorized(prefix + gate.trace);
        Outcome(Failure(gate.result.error), prefix + gate.trace)
      else
        var o := Then(prefix + gate.trace, effect(b));
        AuthorizedAfterGrant(prefix, auth, gate.trace[1..] + effect(b).trace);
        assert o.trace == prefix + [auth] + (gate.trace[1..] + effect(b).trace);
        o
  }
}

=== FILE: list_service.dfy ===
/**
  The list family of `CollectionService`: building a collection's list
  (`GetCollectionListViewAsync`) and dispatching a button fired on the list
  (`ProcessListActionAsync` without an id) or on one of its rows
  (`ProcessListActionAsync` with an id and an edit context).
 */
module ListService {
  import opened Common
  import opened Config
  import opened Intents
  import Crud
  import U = Usage
  import Op = Operations

  /** Each row stands for the entity at the same position, with its variant, the given usage and the given editor. */
  predicate Tagged(env: Env, rows: seq<Row>, entities: seq<Entity>, usage: U.UsageType, editor: Option<ListEditor>) {
    && |rows| == |entities|
    && forall i :: 0 <= i < |rows| ==>
         && rows[i].entity == entities[i] && rows[i].variant == env.variantOf(entities[i])
         && rows[i].usage == usage && rows[i].editor == editor
  }

  /** One edit context per entity, in the entities' order (`Select(ent => new EditContext(…))`). */
  function Rows(env: Env, entities: seq<Entity>, usage: U.UsageType, editor: Option<ListEditor>): (rows: seq<Row>)
    ensures Tagged(env, rows, entities, usage, editor)
  {
    seq(|entities|, i requires 0 <= i < |entities| => Row(entities[i], env.variantOf(entities[i]), usage, editor))
  }

  /**
    The branch both list views share once the rows are loaded: `{List}` alone
    shows the rows for editing in the list view; `Add` (relation lists only)
    shows them for picking in the list view; `Edit` or `New` shows them for
    editing in the list editor, `New` with the blank entity as an extra first
    row; anything else is not implemented. A missing configuration throws.
   */
  function ArrangeRows(env: Env, col: Collection, usage: U.UsageType, newEntity: Entity,
                       existing: seq<Entity>, relation: bool): (r: Result<ListRequest>)
    ensures r.Success? ==> r.value.root == Row(newEntity, env.variantOf(newEntity), usage, None)
    ensures usage == {U.List} ==>
              if col.listView.None? then r == Failure(InvalidOperation(MissingConfiguration))
              else r.Success? && r.value.config == ViewConfig(col.listView.value)
                   && Tagged(env, r.value.rows, existing, {U.Node, U.Edit}, None)
    ensures usage != {U.List} && relation && U.Add in usage ==>
              if col.listView.None? then r == Failure(InvalidOperation(MissingConfiguration))
              else r.Success? && r.value.config == ViewConfig(col.listView.value)
                   && Tagged(env, r.value.rows, existing, {U.Node, U.Pick}, None)
    ensures usage != {U.List} && !(relation && U.Add in usage) && (U.Edit in usage || U.New in usage) ==>
              if col.listEditor.None? then r == Failure(InvalidOperation(MissingConfiguration))
              else r.Success? && r.value.config == EditorConfig(col.listEditor.value)
                   && (U.New !in usage ==> Tagged(env, r.value.rows, existing, {U.Node, U.Edit}, col.listEditor))
                   && (U.New in usage ==>
                         && |r.value.rows| == |existing| + 1
                         && r.value.rows[0] == Row(newEntity, env.variantOf(newEntity), {U.Node, U.New}, col.listEditor)
                         && Tagged(env, r.value.rows[1..], existing, {U.Node, U.Edit}, col.listEditor))
    ensures usage != {U.List} && !(relation && U.Add in usage) && U.Edit !in usage && U.New !in usage ==>
              r == Failure(NotImplemented)
  {
    var root := Row(newEntity, env.variantOf(newEntity), usage, None);
    if usage == {U.List} then
      if col.listView.None? then Failure(InvalidOperation(MissingConfiguration))
      else Success(ListRequest(root, Rows(env, existing, {U.Node, U.Edit}, None), ViewConfig(col.listView.value)))
    else if relation && U.Add in usage then
      if col.listView.None? then Failure(InvalidOperation(MissingConfiguration))
      else Success(ListRequest(root, Rows(env, existing, {U.Node, U.Pick}, None), ViewConfig(col.listView.value)))
    else if U.Edit in usage || U.New in usage then
      if col.listEditor.None? then Failure(InvalidOperation(MissingConfiguration))
      else
        var rows := Rows(env, existing, {U.Node, U.Edit}, col.listEditor);
        var placeholder := Row(newEntity, env.variantOf(newEntity), {U.Node, U.New}, col.listEditor);
        assert ([placeholder] + rows)[1..] == rows;
        Success(ListRequest(root, if U.New in usage then [placeholder] + rows else rows, EditorConfig(col.listEditor.value)))
    else
      Failure(NotImplemented)
  }

  /**
    `GetCollectionListViewAsync`: creates a blank entity of the requested
    variant, authorizes it under the action's operation (an unrecognised
    action throws before authorization), loads every entity under the parent
    and arranges the rows. It never writes.
   */
  function GetCollectionListView(env: Env, col: Collection, action: string, variantAlias: Option<string>,
                                 parentId: Option<string>): (o: Outcome<ListRequest>)
    ensures NoEffects(o.trace)
    ensures |o.trace| >= 1 && o.trace[0] == RepoNew(parentId, env.variantByAlias(variantAlias).typeTag)
    ensures action !in U.Actions ==> o.result == Failure(InvalidOperation(UnknownAction)) && |o.trace| == 1
    ensures action in U.Actions ==>
              var blank := env.repository.newEntity(parentId, env.variantByAlias(variantAlias).typeTag);
              var op := Op.MapActionToOperation(action).value;
              && |o.trace| >= 2 && o.trace[1] == Authorize(blank, op, env.authorize(blank, op))
              && (!env.authorize(blank, op) <==> o.result == Failure(Unauthorized))
              && (env.authorize(blank, op) ==>
                    o.trace == o.trace[..2] + [RepoGetAll(parentId)]
                    && o.result == ArrangeRows(env, col, {U.List} + U.MapActionToUsageType(action), blank,
                                               env.repository.getAll(parentId), false))
    ensures o.result.Success? ==> action in {U.ListAction, U.EditAction, U.NewAction}
  {
    var usage := {U.List} + U.MapActionToUsageType(action);
    var variant := env.variantByAlias(variantAlias);
    var blank := env.repository.newEntity(parentId, variant.typeTag);
    var made := [RepoNew(parentId, variant.typeTag)];
    match Op.MapActionToOperation(action)
    case Failure(e) => Outcome(Failure(e), made)
    case Success(op) =>
      var granted := env.authorize(blank, op);
      var authorized := made + [Authorize(blank, op, granted)];
      if !granted then Outcome(Failure(Unauthorized), authorized)
      else
        var existing := env.repository.getAll(parentId);
        Outcome(ArrangeRows(env, col, usage, blank, existing, false), authorized + [RepoGetAll(parentId)])
  }

  /**
    Collection-level buttons: the list view's when the usage has `List`, the
    list editor's otherwise; null when that configuration or its buttons are
    missing.
   */
  function ListButtons(col: Collection, usage: U.UsageType): (r: Option<seq<Button>>)
    ensures U.List in usage ==> (r.Some? <==> col.listView.Some? && col.listView.value.buttons.Some?)
    ensures U.List !in usage ==> (r.Some? <==> col.listEditor.Some? && col.listEditor.value.buttons.Some?)
    ensures r.Some? && U.List in usage ==> r == col.listView.value.buttons
    ensures r.Some? && U.List !in usage ==> r == col.listEditor.value.buttons
  {
    if U.List in usage then (if col.listView.Some? then col.listView.value.buttons else None)
    else (if col.listEditor.Some? then col.listEditor.value.buttons else None)
  }

  /**
    Row-level buttons: the buttons of the list view's view pane when the
    usage has `List`; otherwise the buttons of every list editor pane, pane
    by pane. Null when the configuration or the pane(s) are missing.
   */
  function ListRowButtons(col: Collection, usage: U.UsageType): (r: Option<seq<Button>>)
    ensures U.List in usage ==> (r.Some? <==> col.listView.Some? && col.listView.value.viewPane.Some?)
    ensures U.List !in usage ==> (r.Some? <==> col.listEditor.Some? && col.listEditor.value.editorPanes.Some?)
    ensures r.Some? && U.List in usage ==> r.value == col.listView.value.viewPane.value.buttons
    ensures r.Some? && U.List !in usage ==>
              && r.value == PaneButtons(col.listEditor.value.editorPanes.value)
              && forall b :: b in r.value <==> exists p :: p in col.listEditor.value.editorPanes.value && b in p.buttons
  {
    if U.List in usage then
      if col.listView.Some? && col.listView.value.viewPane.Some? then Some(col.listView.value.viewPane.value.buttons) else None
    else
      if col.listEditor.Some? && col.listEditor.value.editorPanes.Some? then Some(PaneButtons(col.listEditor.value.editorPanes.value)) else None
  }

  /**
    The `Create` effect of a collection-level button: it needs an entity
    variant as metadata; from a list it navigates to the node editor of a new
    entity, elsewhere it switches the caller's parameters to `new`.
   */
  function CreateCommand(col: Collection, usage: U.UsageType, parentId: Option<string>, b: Button): (r: Result<ViewCommand>)
    ensures !b.metadata.VariantMetadata? <==> r == Failure(InvalidOperation(MetadataNotVariant))
    ensures b.metadata.VariantMetadata? && U.List in usage ==>
              r == Success(NavigateCommand(NodeRoute(U.NewAction, col.alias, b.metadata.variant, parentId, None)))
    ensures b.metadata.VariantMetadata? && U.List !in usage ==>
              r == Success(UpdateParameterCommand(U.NewAction, col.alias, Some(b.metadata.variant.alias), parentId, None))
  {
    match b.metadata
    case VariantMetadata(variant) =>
      if U.List in usage then Success(NavigateCommand(NodeRoute(U.NewAction, col.alias, variant, parentId, None)))
      else Success(UpdateParameterCommand(U.NewAction, col.alias, Some(variant.alias), parentId, None))
    case _ => Failure(InvalidOperation(MetadataNotVariant))
  }

  /**
    The effect of a collection-level list button: no repository call for any
    CRUD type. `Create` yields the create command, `None` does nothing,
    `Refresh` reloads, `Return` returns, and every other type throws.
   */
  function ListEffect(col: Collection, usage: U.UsageType, parentId: Option<string>, b: Button): (o: Outcome<ViewCommand>)
    ensures o.trace == []
    ensures o.result.Failure? ==> o.result.error.InvalidOperation?
    ensures b.crudType == Crud.Create ==> o.result == CreateCommand(col, usage, parentId, b)
    ensures o.result == Success(NoOperationCommand) <==> b.crudType == Crud.None
    ensures o.result == Success(ReloadCommand) <==> b.crudType == Crud.Refresh
    ensures o.result == Success(ReturnCommand) <==> b.crudType == Crud.Return
    ensures o.result == Failure(InvalidOperation(UnsupportedCrudType)) <==>
              b.crudType !in {Crud.Create, Crud.None, Crud.Refresh, Crud.Return}
  {
    match b.crudType
    case Create => Outcome(CreateCommand(col, usage, parentId, b), [])
    case None => Outcome(Success(NoOperationCommand), [])
    case Refresh => Outcome(Success(ReloadCommand), [])
    case Return => Outcome(Success(ReturnCommand), [])
    case _ => Outcome(Failure(InvalidOperation(UnsupportedCrudType)), [])
  }

  /**
    `ProcessListActionAsync` for a collection-level button: finds the button,
    creates a blank entity of the collection's default variant, authorizes it
    under the button's operation, runs a custom button's callback and performs
    the effect. There is no form check, and nothing is written.
   */
  function ProcessListAction(env: Env, col: Collection, action: string, parentId: Option<string>,
                             actionId: string, customData: Option<Payload>): (o: Outcome<ViewCommand>)
    ensures DispatchContract(o, env, env.repository.newEntity(parentId, col.entityVariant.typeTag),
                             FindButton(ListButtons(col, U.MapActionToUsageType(action)), actionId), None,
                             [RepoNew(parentId, col.entityVariant.typeTag)])
    ensures forall i :: 0 <= i < |o.trace| ==> !IsMutation(o.trace[i])
  {
    var usage := U.MapActionToUsageType(action);
    var blank := env.repository.newEntity(parentId, col.entityVariant.typeTag);
    Dispatch(env, blank, FindButton(ListButtons(col, usage), actionId), None,
             [RepoNew(parentId, col.entityVariant.typeTag)], CustomAction(parentId, None, customData),
             (b: Button) => ListEffect(col, usage, parentId, b))
  }

  /**
    The effect of a row-level list button once all checks passed: `Update`,
    `Insert` and `Delete` each make their one write on the row under the
    parent; `View` and `Read` navigate to the row's view and edit routes;
    `Update`, `Delete` and `Refresh` reload; `None` does nothing; `Return`
    returns; `Insert` reopens the editor on the inserted id.
   */
  function ListRowEffect(env: Env, col: Collection, variant: EntityVariant, parentId: Option<string>,
                         id: string, ctx: EditContext, crud: Crud.CrudType): (o: Outcome<ViewCommand>)
    ensures o.result.Failure? ==> o.result == Failure(InvalidOperation(UnsupportedCrudType))
    ensures o.result.Failure? <==> crud in {Crud.Create, Crud.Add, Crud.Remove, Crud.Pick}
    ensures |o.trace| <= 1
    ensures forall i :: 0 <= i < |o.trace| && IsMutation(o.trace[i]) ==> crud in {Crud.Update, Crud.Insert, Crud.Delete}
    ensures o.trace == [RepoUpdate(id, parentId, ctx.entity, ctx.relations)] <==> crud == Crud.Update
    ensures o.trace == [RepoInsert(parentId, ctx.entity, ctx.relations)] <==> crud == Crud.Insert
    ensures o.trace == [RepoDelete(id, parentId)] <==> crud == Crud.Delete
    ensures o.trace == [] <==> crud !in {Crud.Update, Crud.Insert, Crud.Delete}
    ensures o.result == Success(ReloadCommand) <==> crud in {Crud.Update, Crud.Delete, Crud.Refresh}
    ensures o.result == Success(NoOperationCommand) <==> crud == Crud.None
    ensures o.result == Success(ReturnCommand) <==> crud == Crud.Return
    ensures crud == Crud.View ==> o.result == Success(NavigateCommand(NodeRoute(U.ViewAction, col.alias, variant, parentId, Some(id))))
    ensures crud == Crud.Read ==> o.result == Success(NavigateCommand(NodeRoute(U.EditAction, col.alias, variant, parentId, Some(id))))
    ensures crud == Crud.Insert ==>
              o.result == Success(UpdateParameterCommand(U.NewAction, col.alias, Some(variant.alias), parentId,
                                                         env.repository.insert(parentId, ctx.entity, ctx.relations).id))
  {
    match crud
    case View => Outcome(Success(NavigateCommand(NodeRoute(U.ViewAction, col.alias, variant, parentId, Some(id)))), [])
    case Read => Outcome(Success(NavigateCommand(NodeRoute(U.EditAction, col.alias, variant, parentId, Some(id)))), [])
    case Update => Outcome(Success(ReloadCommand), [RepoUpdate(id, parentId, ctx.entity, ctx.relations)])
    case Insert =>
      var inserted := env.repository.insert(parentId, ctx.entity, ctx.relations);
      Outcome(Success(UpdateParameterCommand(U.NewAction, col.alias, Some(variant.alias), parentId, inserted.id)),
              [RepoInsert(parentId, ctx.entity, ctx.relations)])
    case Delete => Outcome(Success(ReloadCommand), [RepoDelete(id, parentId)])
    case None => Outcome(Success(NoOperationCommand), [])
    case Refresh => Outcome(Success(ReloadCommand), [])
    case Return => Outcome(Success(ReturnCommand), [])
    case _ => Outcome(Failure(InvalidOperation(UnsupportedCrudType)), [])
  }

  /**
    `ProcessListActionAsync` for a button on one row: finds the button in the
    row's panes, authorizes the row's entity, checks the form when required,
    resolves the entity's variant, runs a custom button's callback and
    performs the effect.
   */
  function ProcessListRowAction(env: Env, col: Collection, action: string, parentId: Option<string>, id: string,
                                ctx: EditContext, actionId: string, customData: Option<Payload>): (o: Outcome<ViewCommand>)
    ensures DispatchContract(o, env, ctx.entity, FindButton(ListRowButtons(col, U.MapActionToUsageType(action)), actionId),
                             Some(ctx.isValid), [])
    ensures forall i :: 0 <= i < |o.trace| && IsMutation(o.trace[i]) ==>
              FindButton(ListRowButtons(col, U.MapActionToUsageType(action)), actionId).value.crudType
                in {Crud.Update, Crud.Insert, Crud.Delete}
  {
    var usage := U.MapActionToUsageType(action);
    var variant := env.variantOf(ctx.entity);
    Dispatch(env, ctx.entity, FindButton(ListRowButtons(col, usage), actionId), Some(ctx.isValid), [],
             CustomAction(parentId, Some(id), customData),
             (b: Button) => ListRowEffect(env, col, variant, parentId, id, ctx, b.crudType))
  }
}

=== FILE: node_service.dfy ===
/**
  The node family of `CollectionService`: building the editor of one entity
  (`GetNodeEditorAsync`) and dispatching a button fired in it
  (`ProcessNodeEditorActionAsync`).
 */
module NodeService {
  import opened Common
  import opened Config
  import opened Intents
  import Crud
  import U = Usage
  import Op = Operations

  /**
    Loading the entity of a node editor: an existing entity by id for
    `Node|View` and `Node|Edit`, a fresh one for `Node|New`, and none (so
    `EntityNotFound`) for every other usage.
   */
  function LoadNodeEntity(env: Env, usage: U.UsageType, variant: EntityVariant,
                          parentId: Option<string>, id: Option<string>): (o: Outcome<Entity>)
    ensures NoEffects(o.trace) && |o.trace| <= 1
    ensures usage !in {{U.Node, U.View}, {U.Node, U.Edit}, {U.Node, U.New}} ==> o == Outcome(Failure(EntityNotFound), [])
    ensures usage == {U.Node, U.New} ==>
              o == Outcome(Success(env.repository.newEntity(parentId, variant.typeTag)), [RepoNew(parentId, variant.typeTag)])
    ensures usage in {{U.Node, U.View}, {U.Node, U.Edit}} && id.None? ==> o.result == Failure(InvalidOperation(MissingId))
    ensures usage in {{U.Node, U.View}, {U.Node, U.Edit}} && id.Some? ==>
              o.trace == [RepoGetById(id.value, parentId)]
              && (o.result.Success? <==> env.repository.getById(id.value, parentId).Some?)
              && (o.result.Success? ==> Some(o.result.value) == env.repository.getById(id.value, parentId))
              && (o.result.Failure? ==> o.result.error == EntityNotFound)
  {
    if usage == {U.Node, U.View} || usage == {U.Node, U.Edit} then
      match id
      case None => Outcome(Failure(InvalidOperation(MissingId)), [])
      case Some(key) =>
        var found := env.repository.getById(key, parentId);
        Outcome(if found.Some? then Success(found.value) else Failure(EntityNotFound), [RepoGetById(key, parentId)])
    else if usage == {U.Node, U.New} then
      Outcome(Success(env.repository.newEntity(parentId, variant.typeTag)), [RepoNew(parentId, variant.typeTag)])
    else
      Outcome(Failure(EntityNotFound), [])
  }

  /**
    `GetNodeEditorAsync`: picks the node view for a `view` action and the node
    editor otherwise, loads the entity, resolves its variant (by alias for a
    new entity, from the instance otherwise), authorizes it under the action's
    operation, and hands the edit context to the UI service. It never writes.
   */
  function GetNodeEditor(env: Env, col: Collection, action: string, variantAlias: string,
                         parentId: Option<string>, id: Option<string>): (o: Outcome<NodeRequest>)
    ensures NoEffects(o.trace)
    ensures (if action == U.ViewAction then col.nodeView else col.nodeEditor).None? ==>
              o == Outcome(Failure(InvalidOperation(MissingConfiguration)), [])
    ensures action !in {U.ViewAction, U.EditAction, U.NewAction} ==> o.result.Failure?
    ensures o.result.Success? ==>
              var req := o.result.value;
              && action in {U.ViewAction, U.EditAction, U.NewAction}
              && req.usage == {U.Node} + U.MapActionToUsageType(action)
              && Some(req.config) == (if action == U.ViewAction then col.nodeView else col.nodeEditor)
              && |o.trace| == 2
              && o.trace[1] == Authorize(req.entity, Op.MapActionToOperation(action).value, true)
              && (action == U.NewAction ==>
                    req.variant == env.variantByAlias(Some(variantAlias))
                    && req.entity == env.repository.newEntity(parentId, req.variant.typeTag))
              && (action != U.NewAction ==>
                    id.Some? && req.variant == env.variantOf(req.entity)
                    && env.repository.getById(id.value, parentId) == Some(req.entity))
    ensures o.result == Failure(Unauthorized) <==> |o.trace| == 2 && o.trace[1].Authorize? && !o.trace[1].granted
    ensures (if action == U.ViewAction then col.nodeView else col.nodeEditor).Some? ==>
              var load := LoadNodeEntity(env, {U.Node} + U.MapActionToUsageType(action),
                                         env.variantByAlias(Some(variantAlias)), parentId, id);
              load.result.Failure? ==> o == Outcome(Failure(load.result.error), load.trace)
    ensures (if action == U.ViewAction then col.nodeView else col.nodeEditor).Some? && action in U.Actions ==>
              var load := LoadNodeEntity(env, {U.Node} + U.MapActionToUsageType(action),
                                         env.variantByAlias(Some(variantAlias)), parentId, id);
              var op := Op.MapActionToOperation(action).value;
              load.result.Success? ==>
                && o.trace == load.trace + [Authorize(load.result.value, op, env.authorize(load.result.value, op))]
                && (!env.authorize(load.result.value, op) <==> o.result == Failure(Unauthorized))
                && (env.authorize(load.result.value, op) ==> o.result.Success? && o.result.value.entity == load.result.value)
  {
    var usage := {U.Node} + U.MapActionToUsageType(action);
    var config := if U.View in usage then col.nodeView else col.nodeEditor;
    if config.None? then Outcome(Failure(InvalidOperation(MissingConfiguration)), [])
    else
      var variant := env.variantByAlias(Some(variantAlias));
      var load := LoadNodeEntity(env, usage, variant, parentId, id);
      match load.result
      case Failure(e) => Outcome(Failure(e), load.trace)
      case Success(entity) =>
        var resolved := if U.New in usage then variant else env.variantOf(entity);
        match Op.MapActionToOperation(action)
        case Failure(e) => Outcome(Failure(e), load.trace)
        case Success(op) =>
          var granted := env.authorize(entity, op);
          var trace := load.trace + [Authorize(entity, op, granted)];
          if !granted then Outcome(Failure(Unauthorized), trace)
          else Outcome(Success(NodeRequest(entity, resolved, usage, config.value)), trace)
  }

  /**
    The buttons a node button is looked up in (`NodeEditor?.Buttons`): the
    node editor's, whatever the action; null when the collection has no node
    editor or the editor has no buttons.
   */
  function NodeEditorButtons(col: Collection): (r: Option<seq<Button>>)
    ensures r.Some? <==> col.nodeEditor.Some? && col.nodeEditor.value.buttons.Some?
    ensures r.Some? ==> r == col.nodeEditor.value.buttons
  {
    match col.nodeEditor
    case None => None
    case Some(editor) => editor.buttons
  }

  /**
    The CRUD effect of a node button, after all checks have passed: the
    repository call it makes and the command it returns.
   */
  function NodeEffect(env: Env, col: Collection, variant: EntityVariant, parentId: Option<string>,
                      id: Option<string>, ctx: EditContext, crud: Crud.CrudType): (o: Outcome<ViewCommand>)
    ensures o.result.Failure? ==> o.result.error in {NotImplemented, InvalidOperation(MissingId), InvalidOperation(UnsupportedCrudType)}
    ensures o.result == Failure(InvalidOperation(MissingId)) <==> crud in {Crud.Update, Crud.Delete} && id.None?
    ensures o.result == Failure(NotImplemented) <==> crud == Crud.Return
    ensures o.result == Failure(InvalidOperation(UnsupportedCrudType)) <==> crud in {Crud.Create, Crud.Add, Crud.Remove, Crud.Pick}
    ensures |o.trace| <= 1
    ensures forall i :: 0 <= i < |o.trace| && IsMutation(o.trace[i]) ==> crud in {Crud.Update, Crud.Insert, Crud.Delete}
    ensures o.trace == [] <==> !(crud == Crud.Insert || (crud in {Crud.Update, Crud.Delete} && id.Some?))
    ensures crud == Crud.Update && id.Some? ==>
              o == Outcome(Success(ReloadCommand), [RepoUpdate(id.value, parentId, ctx.entity, ctx.relations)])
    ensures crud == Crud.Delete && id.Some? ==>
              o == Outcome(Success(NavigateCommand(CollectionRoute(U.ListAction, col.alias, parentId))), [RepoDelete(id.value, parentId)])
    ensures o.result == Success(ReloadCommand) <==> crud == Crud.Refresh || (crud == Crud.Update && id.Some?)
    ensures o.result == Success(NoOperationCommand) <==> crud == Crud.None
  {
    match crud
    case View => Outcome(Success(NavigateCommand(NodeRoute(U.ViewAction, col.alias, variant, parentId, id))), [])
    case Read => Outcome(Success(NavigateCommand(NodeRoute(U.EditAction, col.alias, variant, parentId, id))), [])
    case Update =>
      if id.None? then Outcome(Failure(InvalidOperation(MissingId)), [])
      else Outcome(Success(ReloadCommand), [RepoUpdate(id.value, parentId, ctx.entity, ctx.relations)])
    case Insert =>
      var inserted := env.repository.insert(parentId, ctx.entity, ctx.relations);
      Outcome(Success(NavigateCommand(NodeRoute(U.EditAction, col.alias, variant, parentId, inserted.id))),
              [RepoInsert(parentId, ctx.entity, ctx.relations)])
    case Delete =>
      if id.None? then Outcome(Failure(InvalidOperation(MissingId)), [])
      else Outcome(Success(NavigateCommand(CollectionRoute(U.ListAction, col.alias, parentId))), [RepoDelete(id.value, parentId)])
    case None => Outcome(Success(NoOperationCommand), [])
    case Refresh => Outcome(Success(ReloadCommand), [])
    case Return => Outcome(Failure(NotImplemented), [])
    case _ => Outcome(Failure(InvalidOperation(UnsupportedCrudType)), [])
  }

  /**
    `ProcessNodeEditorActionAsync`: finds the fired button among the node
    editor's buttons, authorizes the edited entity under the button's
    operation, checks the form when the button requires it, runs a custom
    button's callback, and performs the button's effect.
   */
  function ProcessNodeEditorAction(env: Env, col: Collection, variantAlias: string, parentId: Option<string>,
                                   id: Option<string>, ctx: EditContext, actionId: string,
                                   customData: Option<Payload>): (o: Outcome<ViewCommand>)
    ensures DispatchContract(o, env, ctx.entity, FindButton(NodeEditorButtons(col), actionId), Some(ctx.isValid), [])
    ensures forall i :: 0 <= i < |o.trace| && IsMutation(o.trace[i]) ==>
              FindButton(NodeEditorButtons(col), actionId).value.crudType in {Crud.Update, Crud.Insert, Crud.Delete}
  {
    var variant := env.variantByAlias(Some(variantAlias));
    Dispatch(env, ctx.entity, FindButton(NodeEditorButtons(col), actionId), Some(ctx.isValid), [],
             CustomAction(parentId, id, customData),
             (b: Button) => NodeEffect(env, col, variant, parentId, id, ctx, b.crudType))
  }
}

=== FILE: projection.dfy ===
/**
  `CollectionDataProvider`: the cached projection of a related collection that
  a relation editor shows. It holds the snapshot of the collection's elements,
  the ids currently related to the owning entity, the editor's current
  selection, and one change subscription on the repository.

  The provider is modelled as a value and each operation as a transition. The
  memory cache is modelled as "the snapshot is the repository's `getAll` for
  the owner's parent id", passed in as `snapshot`; a change notification is
  the explicit transition `OnChange`.
 */
module RelationProjection {
  import opened Common
  import opened Sequences

  /**
    A boxed id as the provider stores it. `Contains` compares with `Equals`
    and `First(x => x.Id == option.Id)` with `==` on `object`; both are
    modelled as value equality.
   */
  datatype Obj = Null | Box(key: string)

  /** An element: the id and the display labels of one entity. */
  datatype Element = Element(id: Obj, labels: seq<string>)

  /**
    What the provider is constructed with: the getter of the related entity's
    id property, the string getters of its label properties (in order), and
    the parent id the repository is queried with (null without a parent id
    property or when its value is not a string).
   */
  datatype Metadata = Metadata(
    idOf: Entity -> Obj,
    labelGetters: seq<Entity -> string>,
    parentIdOf: Entity -> Option<string>)

  /** The value of the owner's relation property, by the runtime shape it has. */
  datatype RelationValue =
    | EntityCollection(entities: seq<Entity>)   // an `ICollection<IEntity>`
    | ObjectCollection(items: seq<Obj>)         // an `ICollection<object>`
    | OtherEnumerable(items: seq<Obj>)          // any other `IEnumerable`
    | NotEnumerable                             // anything else, null included

  /**
    The provider's fields. `subscriptions[k]` tells whether the k-th change
    callback registered so far is still live; `eventHandle` is the index of
    the last one registered.
   */
  datatype Provider = Provider(
    entity: Option<Entity>,
    elements: Option<seq<Element>>,
    relatedElements: Option<seq<Element>>,
    relatedIds: Option<seq<Obj>>,
    subscriptions: seq<bool>,
    eventHandle: Option<nat>)

  /** Whether an operation completed or threw. */
  datatype Status = Done | Threw(error: Error)

  /** The provider after an operation that may throw (the state it leaves behind either way). */
  datatype Step = Step(state: Provider, status: Status)

  /** The provider after a change notification, and whether `OnDataChange` was raised. */
  datatype Notified = Notified(state: Provider, dataChanged: bool)

  /** A freshly constructed provider. */
  const Initial: Provider := Provider(None, None, None, None, [], None)

  /**
    The provider's invariant: a snapshot and a subscription exist exactly once
    an entity is bound, a current selection only with a snapshot, and the only
    live subscription is the last one registered.
   */
  predicate Valid(p: Provider) {
    && (p.elements.Some? <==> p.entity.Some?)
    && (p.eventHandle.Some? <==> p.entity.Some?)
    && (p.eventHandle.Some? ==> p.eventHandle.value < |p.subscriptions|)
    && (forall k :: 0 <= k < |p.subscriptions| && p.subscriptions[k] ==> p.eventHandle == Some(k))
    && (p.relatedElements.Some? ==> p.elements.Some?)
  }

  /** The number of live change subscriptions. */
  function LiveCount(subs: seq<bool>): (n: nat)
    ensures n <= |subs|
    ensures n == 0 <==> forall k :: 0 <= k < |subs| ==> !subs[k]
  {
    if |subs| == 0 then 0
    else
      var rest := LiveCount(subs[..|subs| - 1]);
      assert forall k :: 0 <= k < |subs| - 1 ==> subs[k] == subs[..|subs| - 1][k];
      rest + (if subs[|subs| - 1] then 1 else 0)
  }

  /** The element of one entity, labels in the order of the label properties. */
  function ToElement(m: Metadata, e: Entity): (x: Element)
    ensures x.id == m.idOf(e)
    ensures |x.labels| == |m.labelGetters| && forall i :: 0 <= i < |x.labels| ==> x.labels[i] == m.labelGetters[i](e)
  {
    Element(m.idOf(e), seq(|m.labelGetters|, i requires 0 <= i < |m.labelGetters| => m.labelGetters[i](e)))
  }

  /** The elements of a list of entities, one per entity, in order. */
  function Project(m: Metadata, entities: seq<Entity>): (xs: seq<Element>)
    ensures |xs| == |entities| && forall i :: 0 <= i < |xs| ==> xs[i] == ToElement(m, entities[i])
  {
    seq(|entities|, i requires 0 <= i < |entities| => ToElement(m, entities[i]))
  }

  /** Disposing the subscription `handle` (`_eventHandle?.Dispose()`). */
  function Release(subs: seq<bool>, handle: Option<nat>): (r: seq<bool>)
    ensures |r| == |subs|
    ensures forall k :: 0 <= k < |r| ==> r[k] == (subs[k] && handle != Some(k))
  {
    if handle.Some? && handle.value < |subs| then subs[handle.value := false] else subs
  }

  /**
    `SetElementsAsync`: nothing happens while no entity is bound. Otherwise the
    previous subscription is disposed before a new one is registered, and the
    snapshot becomes the elements of the repository's entities under the
    entity's parent id. Nothing else changes.
   */
  function SetElements(p: Provider, m: Metadata, snapshot: Option<string> -> seq<Entity>): (q: Provider)
    ensures p.entity.None? ==> q == p
    ensures p.entity.Some? ==>
              && q.elements == Some(Project(m, snapshot(m.parentIdOf(p.entity.value))))
              && |q.subscriptions| == |p.subscriptions| + 1
              && q.subscriptions[|p.subscriptions|]
              && q.eventHandle == Some(|p.subscriptions|)
              && (forall k :: 0 <= k < |p.subscriptions| ==> q.subscriptions[k] == (p.subscriptions[k] && p.eventHandle != Some(k)))
              && q.entity == p.entity && q.relatedElements == p.relatedElements && q.relatedIds == p.relatedIds
    ensures Valid(p) ==> Valid(q)
  {
    match p.entity
    case None => p
    case Some(e) =>
      var subs := Release(p.subscriptions, p.eventHandle) + [true];
      p.(subscriptions := subs, eventHandle := Some(|p.subscriptions|),
         elements := Some(Project(m, snapshot(m.parentIdOf(e)))))
  }

  /** `SetEntityAsync`: binds the entity, then refreshes the snapshot and the subscription. */
  function SetEntity(p: Provider, m: Metadata, snapshot: Option<string> -> seq<Entity>, e: Entity): (q: Provider)
    ensures q.entity == Some(e)
    ensures q.elements == Some(Project(m, snapshot(m.parentIdOf(e))))
    ensures q.relatedElements == p.relatedElements && q.relatedIds == p.relatedIds
    ensures Valid(p) ==> Valid(q) && LiveCount(q.subscriptions) == 1
  {
    var q := SetElements(p.(entity := Some(e)), m, snapshot);
    if Valid(p) then
      assert forall k :: 0 <= k < |q.subscriptions| && q.subscriptions[k] ==> k == |p.subscriptions|;
      LiveCountOne(q.subscriptions, |p.subscriptions|);
      q
    else q
  }

  /** A list of subscriptions in which exactly index `k` is live has one live subscription. */
  lemma {:induction false} LiveCountOne(subs: seq<bool>, k: nat)
    requires k < |subs| && subs[k]
    requires forall j :: 0 <= j < |subs| && subs[j] ==> j == k
    ensures LiveCount(subs) == 1
    decreases |subs|
  {
    var init := subs[..|subs| - 1];
    if k == |subs| - 1 {
      assert forall j :: 0 <= j < |init| ==> !init[j] by {
        forall j | 0 <= j < |init| ensures !init[j] { assert init[j] == subs[j]; }
      }
    } else {
      forall j | 0 <= j < |init| && init[j] ensures j == k { assert init[j] == subs[j]; }
      assert init[k] == subs[k];
      LiveCountOne(init, k);
    }
  }

  /** Nulls are skipped when a plain enumerable is copied into the related ids. */
  predicate NonNull(x: Obj) { !x.Null? }

  /**
    The related ids of a relation value: the ids of a collection of
    entities, a collection of objects as it is, the non-null items of any
    other enumerable in their order; anything else throws.
   */
  function ExtractRelatedIds(data: RelationValue): (r: Result<seq<Obj>>)
    ensures r.Failure? <==> data.NotEnumerable?
    ensures r.Failure? ==> r.error == InvalidOperation(UnsupportedRelationShape)
    ensures data.EntityCollection? ==>
              |r.value| == |data.entities|
              && forall i :: 0 <= i < |r.value| ==>
                   r.value[i] == (if data.entities[i].id.Some? then Box(data.entities[i].id.value) else Null)
    ensures data.ObjectCollection? ==> r.value == data.items
    ensures data.OtherEnumerable? ==>
              IsSubsequence(r.value, data.items)
              && (forall x :: x in r.value <==> x in data.items && x != Null)
              && forall x :: multiset(r.value)[x] == if x == Null then 0 else multiset(data.items)[x]
  {
    match data
    case EntityCollection(entities) =>
      Success(seq(|entities|, i requires 0 <= i < |entities| =>
                    if entities[i].id.Some? then Box(entities[i].id.value) else Null))
    case ObjectCollection(items) => Success(items)
    case OtherEnumerable(items) =>
      WhereCounts(items, NonNull);
      Success(Where(items, NonNull))
    case NotEnumerable => Failure(InvalidOperation(UnsupportedRelationShape))
  }

  /** Whether an element's id is among the related ids (false while they are unset). */
  function IsRelated(ids: Option<seq<Obj>>): Element -> bool {
    (x: Element) => ids.Some? && x.id in ids.value
  }

  /**
    `UpdateRelatedElements`: the current selection becomes the snapshot
    elements whose id is related, in snapshot order and with every copy the
    snapshot holds; it stays null while there is no snapshot.
   */
  function UpdateRelatedElements(p: Provider): (q: Provider)
    ensures q.relatedElements.None? <==> p.elements.None?
    ensures q.relatedElements.Some? ==>
              IsSubsequence(q.relatedElements.value, p.elements.value)
              && forall x :: x in q.relatedElements.value <==>
                               x in p.elements.value && p.relatedIds.Some? && x.id in p.relatedIds.value
    ensures q.relatedElements.Some? ==>
              forall x :: multiset(q.relatedElements.value)[x] ==
                if p.relatedIds.Some? && x.id in p.relatedIds.value then multiset(p.elements.value)[x] else 0
    ensures q.relatedElements.Some? ==> q.relatedElements.value == GetRelatedElements(p)
    ensures q.(relatedElements := p.relatedElements) == p
    ensures Valid(p) ==> Valid(q)
  {
    if p.elements.None? then p.(relatedElements := None)
    else
      var kept := Where(p.elements.value, IsRelated(p.relatedIds));
      WhereCounts(p.elements.value, IsRelated(p.relatedIds));
      assert p.relatedIds.None? ==> multiset(kept) == multiset{};
      p.(relatedElements := Some(kept))
  }

  /**
    `SetRelationMetadataAsync`: binds the entity (refreshing snapshot and
    subscription) and then reads the related ids from the relation value. A
    value of an unsupported shape throws, but only after the entity was
    bound; otherwise the current selection is recomputed from the new ids.
   */
  function SetRelationMetadata(p: Provider, m: Metadata, snapshot: Option<string> -> seq<Entity>,
                               e: Entity, data: RelationValue): (s: Step)
    ensures s.state.entity == Some(e)
    ensures s.state.elements == Some(Project(m, snapshot(m.parentIdOf(e))))
    ensures s.status.Threw? <==> data.NotEnumerable?
    ensures s.status.Threw? ==>
              s.status.error == InvalidOperation(UnsupportedRelationShape)
              && s.state.relatedIds == p.relatedIds && s.state.relatedElements == p.relatedElements
    ensures s.status.Done? ==>
              s.state.relatedIds == Some(ExtractRelatedIds(data).value)
              && s.state.relatedElements == Some(GetRelatedElements(s.state))
    ensures Valid(p) ==> Valid(s.state)
  {
    var bound := SetEntity(p, m, snapshot, e);
    match ExtractRelatedIds(data)
    case Failure(err) => Step(bound, Threw(err))
    case Success(ids) => Step(UpdateRelatedElements(bound.(relatedIds := Some(ids))), Done)
  }

  /** `GetAvailableElementsAsync`: the snapshot, or nothing before one is loaded. */
  function GetAvailableElements(p: Provider): (r: seq<Element>)
    ensures p.elements.Some? ==> r == p.elements.value
    ensures p.elements.None? ==> r == []
  {
    p.elements.GetOr([])
  }

  /**
    `GetRelatedElementsAsync`: the snapshot elements whose id is related, in
    snapshot order, recomputed on every call; empty while the snapshot or the
    related ids are unset.
   */
  function GetRelatedElements(p: Provider): (r: seq<Element>)
    ensures IsSubsequence(r, GetAvailableElements(p))
    ensures forall x :: x in r <==> x in GetAvailableElements(p) && p.relatedIds.Some? && x.id in p.relatedIds.value
    ensures forall x :: multiset(r)[x] ==
              if p.relatedIds.Some? && x.id in p.relatedIds.value then multiset(GetAvailableElements(p))[x] else 0
    ensures p.relatedIds.None? || p.elements.None? ==> r == []
  {
    if p.relatedIds.Some? && p.elements.Some? then
      WhereCounts(p.elements.value, IsRelated(p.relatedIds));
      Where(p.elements.value, IsRelated(p.relatedIds))
    else []
  }

  /** `GetCurrentRelatedElements`: the current selection, or nothing while it is unset. */
  function GetCurrentRelatedElements(p: Provider): (r: seq<Element>)
    ensures p.relatedElements.Some? ==> r == p.relatedElements.value
    ensures p.relatedElements.None? ==> r == []
  {
    p.relatedElements.GetOr([])
  }

  /** The matcher of `First(x => x.Id == option.Id)`. */
  function HasId(id: Obj): Element -> bool {
    (x: Element) => x.id == id
  }

  /**
    `AddElementAsync`: appends the first snapshot element with the option's id
    to the current selection, without removing duplicates. Nothing happens
    while the selection is unset; with no snapshot, or no element with that
    id, it throws and leaves the provider as it was.
   */
  function AddElement(p: Provider, option: Element): (s: Step)
    ensures p.relatedElements.None? ==> s == Step(p, Done)
    ensures s.status.Threw? ==> s.state == p
    ensures s.status == Threw(InvalidOperation(NoMatchingElement)) <==>
              p.relatedElements.Some? && p.elements.Some? && forall x :: x in p.elements.value ==> x.id != option.id
    ensures s.status.Threw? ==> s.status.error in {ArgumentNull, InvalidOperation(NoMatchingElement)}
    ensures Valid(p) ==> s.status != Threw(ArgumentNull) && Valid(s.state)
    ensures p.relatedElements.Some? && s.status.Done? ==>
              && s.state.relatedElements.Some?
              && |s.state.relatedElements.value| == |p.relatedElements.value| + 1
              && s.state.relatedElements.value[..|p.relatedElements.value|] == p.relatedElements.value
              && var added := s.state.relatedElements.value[|p.relatedElements.value|];
                 && added.id == option.id
                 && var avail := GetAvailableElements(p);
                    exists i :: 0 <= i < |avail| && avail[i] == added && forall j :: 0 <= j < i ==> avail[j].id != option.id
    ensures s.state.(relatedElements := p.relatedElements) == p
  {
    match p.relatedElements
    case None => Step(p, Done)
    case Some(current) =>
      match p.elements
      case None => Step(p, Threw(ArgumentNull))
      case Some(elements) =>
        match First(elements, HasId(option.id))
        case None => Step(p, Threw(InvalidOperation(NoMatchingElement)))
        case Some(x) =>
          var grown := current + [x];
          assert grown[..|current|] == current;
          Step(p.(relatedElements := Some(grown)), Done)
  }

  /** The matcher of `RemoveAll(x => x.Id == option.Id)`, negated: what stays. */
  function LacksId(id: Obj): Element -> bool {
    (x: Element) => x.id != id
  }

  /**
    `RemoveElementAsync`: removes every entry with the option's id from the
    current selection and keeps the others in their order. Nothing happens
    while the selection is unset.
   */
  function RemoveElement(p: Provider, option: Element): (q: Provider)
    ensures p.relatedElements.None? ==> q == p
    ensures p.relatedElements.Some? ==>
              q.relatedElements.Some? &&
              var before, after := p.relatedElements.value, q.relatedElements.value;
              && IsSubsequence(after, before)
              && (forall x :: x in after <==> x in before && x.id != option.id)
              && forall x :: multiset(after)[x] == if x.id == option.id then 0 else multiset(before)[x]
    ensures q.(relatedElements := p.relatedElements) == p
    ensures Valid(p) ==> Valid(q)
  {
    match p.relatedElements
    case None => p
    case Some(current) =>
      WhereCounts(current, LacksId(option.id));
      p.(relatedElements := Some(Where(current, LacksId(option.id))))
  }

  /**
    `SetElementAsync`: the current selection becomes exactly the first
    snapshot element with the option's id. Nothing happens while the selection
    is unset; the selection is cleared before the lookup, so when the lookup
    throws the selection is left empty.
   */
  function SetElement(p: Provider, option: Element): (s: Step)
    ensures p.relatedElements.None? ==> s == Step(p, Done)
    ensures p.relatedElements.Some? && s.status.Done? ==>
              && s.state.relatedElements.Some? && |s.state.relatedElements.value| == 1
              && var x := s.state.relatedElements.value[0];
                 && x.id == option.id
                 && var avail := GetAvailableElements(p);
                    exists i :: 0 <= i < |avail| && avail[i] == x && forall j :: 0 <= j < i ==> avail[j].id != option.id
    ensures s.status.Threw? ==> s.state.relatedElements == Some([])
    ensures s.status == Threw(InvalidOperation(NoMatchingElement)) <==>
              p.relatedElements.Some? && p.elements.Some? && forall x :: x in p.elements.value ==> x.id != option.id
    ensures s.status.Threw? ==> s.status.error in {ArgumentNull, InvalidOperation(NoMatchingElement)}
    ensures Valid(p) ==> s.status != Threw(ArgumentNull) && Valid(s.state)
    ensures s.state.(relatedElements := p.relatedElements) == p
  {
    match p.relatedElements
    case None => Step(p, Done)
    case Some(_) =>
      var cleared := p.(relatedElements := Some([]));
      match p.elements
      case None => Step(cleared, Threw(ArgumentNull))
      case Some(elements) =>
        match First(elements, HasId(option.id))
        case None => Step(cleared, Threw(InvalidOperation(NoMatchingElement)))
        case Some(x) => Step(p.(relatedElements := Some([x])), Done)
  }

  /** `Dispose`: releases the current subscription; nothing else changes. */
  function Dispose(p: Provider): (q: Provider)
    ensures Valid(p) ==> Valid(q) && LiveCount(q.subscriptions) == 0
    ensures q.(subscriptions := p.subscriptions) == p
    ensures |q.subscriptions| == |p.subscriptions|
  {
    p.(subscriptions := Release(p.subscriptions, p.eventHandle))
  }

  /**
    The repository's change callback registered as subscription `k` fires: if
    that subscription is still live, the snapshot is reloaded (re-registering
    the callback) and `OnDataChange` is raised; a disposed subscription no
    longer fires.
   */
  function OnChange(p: Provider, m: Metadata, snapshot: Option<string> -> seq<Entity>, k: nat): (n: Notified)
    ensures n.dataChanged <==> k < |p.subscriptions| && p.subscriptions[k]
    ensures !n.dataChanged ==> n.state == p
    ensures n.dataChanged ==> n.state == SetElements(p, m, snapshot)
    ensures Valid(p) ==> Valid(n.state)
  {
    if k < |p.subscriptions| && p.subscriptions[k] then Notified(SetElements(p, m, snapshot), true)
    else Notified(p, false)
  }
}

=== FILE: projection_lemmas.dfy ===
/**
  Properties of the relation projection across several operations: the
  subscription discipline, the selection edits, and how a change
  notification refreshes the snapshot but not the selection.
 */
module ProjectionProperties {
  import opened Common
  import opened Sequences
  import opened RelationProjection

  /** A valid provider holds at most one live change subscription: the last one registered. */
  lemma AtMostOneSubscription(p: Provider)
    requires Valid(p)
    ensures LiveCount(p.subscriptions) <= 1
    ensures LiveCount(p.subscriptions) == 1 <==> p.eventHandle.Some? && p.subscriptions[p.eventHandle.value]
  {
    if p.eventHandle.Some? && p.subscriptions[p.eventHandle.value] {
      LiveCountOne(p.subscriptions, p.eventHandle.value);
    } else {
      assert forall k :: 0 <= k < |p.subscriptions| ==> !p.subscriptions[k];
    }
  }

  /** Every operation keeps the invariant, starting from a freshly constructed provider. */
  lemma OperationsPreserveValid(p: Provider, m: Metadata, snapshot: Option<string> -> seq<Entity>,
                                  e: Entity, data: RelationValue, option: Element, k: nat)
    requires Valid(p)
    ensures Valid(Initial)
    ensures Valid(SetEntity(p, m, snapshot, e))
    ensures Valid(SetRelationMetadata(p, m, snapshot, e, data).state)
    ensures Valid(AddElement(p, option).state) && Valid(RemoveElement(p, option)) && Valid(SetElement(p, option).state)
    ensures Valid(Dispose(p)) && Valid(OnChange(p, m, snapshot, k).state)
  {
  }

  /** On a valid provider the selection edits never look an option up in a missing snapshot. */
  lemma NoNullSnapshot(p: Provider, option: Element)
    requires Valid(p)
    ensures AddElement(p, option).status != Threw(ArgumentNull)
    ensures SetElement(p, option).status != Threw(ArgumentNull)
  {
  }

  /** A selection with no entry for `id` is left whole by filtering on `id`. */
  lemma RemoveAbsent(current: seq<Element>, id: Obj)
    requires forall x :: x in current ==> x.id != id
    ensures Where(current, LacksId(id)) == current
  {
    WhereKeepsAll(current, LacksId(id));
  }

  /** Filtering on `id` drops an appended entry with that id and keeps a selection without one. */
  lemma RemoveAppended(current: seq<Element>, added: Element)
    requires forall x :: x in current ==> x.id != added.id
    ensures Where(current + [added], LacksId(added.id)) == current
  {
    WhereConcat(current, [added], LacksId(added.id));
    RemoveAbsent(current, added.id);
    var dropped := Where([added], LacksId(added.id));
    assert forall y :: y !in dropped;
  }

  /**
    Adding an option that is not selected yet and then removing it gives back
    the provider exactly as it was.
   */
  lemma AddThenRemove(p: Provider, option: Element)
    requires p.relatedElements.Some?
    requires forall x :: x in p.relatedElements.value ==> x.id != option.id
    requires AddElement(p, option).status.Done?
    ensures RemoveElement(AddElement(p, option).state, option) == p
  {
    var current := p.relatedElements.value;
    var x := First(p.elements.value, HasId(option.id)).value;
    assert AddElement(p, option).state == p.(relatedElements := Some(current + [x]));
    RemoveAppended(current, x);
  }

  /** Removing an option twice removes it once. */
  lemma RemoveIdempotent(p: Provider, option: Element)
    ensures RemoveElement(RemoveElement(p, option), option) == RemoveElement(p, option)
  {
    if p.relatedElements.Some? {
      WhereIdempotent(p.relatedElements.value, LacksId(option.id));
    }
  }

  /**
    Setting the selection is clearing it and then adding: the two agree on the
    resulting provider and on whether and how they throw.
   */
  lemma SetElementIsClearThenAdd(p: Provider, option: Element)
    requires p.relatedElements.Some?
    ensures SetElement(p, option) == AddElement(p.(relatedElements := Some([])), option)
  {
  }

  /**
    A successful `SetRelationMetadataAsync` leaves the selection equal to what
    `GetRelatedElementsAsync` computes, and both are drawn from the snapshot
    of the bound entity.
   */
  lemma MetadataSyncsSelection(p: Provider, m: Metadata, snapshot: Option<string> -> seq<Entity>,
                                 e: Entity, data: RelationValue)
    requires !data.NotEnumerable?
    ensures var q := SetRelationMetadata(p, m, snapshot, e, data).state;
            && GetCurrentRelatedElements(q) == GetRelatedElements(q)
            && GetAvailableElements(q) == Project(m, snapshot(m.parentIdOf(e)))
            && IsSubsequence(GetCurrentRelatedElements(q), GetAvailableElements(q))
  {
  }

  /**
    When the live subscription fires, the snapshot is reloaded from the
    repository's current contents and `GetRelatedElementsAsync` follows it,
    while the selection the editor holds is left as it was.
   */
  lemma ChangeRefreshesSnapshot(p: Provider, m: Metadata, snapshot: Option<string> -> seq<Entity>)
    requires Valid(p) && p.entity.Some? && p.subscriptions[p.eventHandle.value]
    ensures var n := OnChange(p, m, snapshot, p.eventHandle.value);
            && n.dataChanged
            && GetAvailableElements(n.state) == Project(m, snapshot(m.parentIdOf(p.entity.value)))
            && GetCurrentRelatedElements(n.state) == GetCurrentRelatedElements(p)
            && n.state.relatedIds == p.relatedIds
            && LiveCount(n.state.subscriptions) == 1
  {
    var q := OnChange(p, m, snapshot, p.eventHandle.value).state;
    assert forall k :: 0 <= k < |q.subscriptions| && q.subscriptions[k] ==> k == |p.subscriptions|;
    LiveCountOne(q.subscriptions, |p.subscriptions|);
  }

  /** Reloading the snapshot disposes the subscription that was live before. */
  lemma ReloadRetiresOldSubscription(p: Provider, m: Metadata, snapshot: Option<string> -> seq<Entity>,
                                       later: Option<string> -> seq<Entity>)
    requires Valid(p) && p.entity.Some?
    ensures !OnChange(SetElements(p, m, snapshot), m, later, p.eventHandle.value).dataChanged
  {
  }

  /** After `Dispose` no change notification reaches the provider, and disposing again changes nothing. */
  lemma DisposeSilences(p: Provider, m: Metadata, snapshot: Option<string> -> seq<Entity>, k: nat)
    requires Valid(p)
    ensures OnChange(Dispose(p), m, snapshot, k) == Notified(Dispose(p), false)
    ensures Dispose(Dispose(p)) == Dispose(p)
  {
    assert forall j :: 0 <= j < |p.subscriptions| ==> !Dispose(p).subscriptions[j];
  }

  /** The filter of the worked example below: ids 3 and 1 select the first and third of three elements. */
  lemma ExampleFilter(x1: Element, x2: Element, x3: Element)
    requires x1.id == Box("1") && x2.id == Box("2") && x3.id == Box("3")
    ensures Where([x1, x2, x3], IsRelated(Some([Box("3"), Box("1")]))) == [x1, x3]
  {
    var keep := IsRelated(Some([Box("3"), Box("1")]));
    assert keep(x1) && !keep(x2) && keep(x3);
    assert [x1, x2, x3][1..] == [x2, x3] && [x2, x3][1..] == [x3] && [x3][1..] == [];
    assert Where([x3], keep) == [x3];
    assert Where([x2, x3], keep) == [x3];
  }

  /**
    A worked example: a snapshot of three entities with ids 1, 2, 3 and a
    relation holding ids 3 and 1. The related elements come out in snapshot
    order.
   */
  lemma RelatedIdsExample(m: Metadata, a: Entity, b: Entity, c: Entity, owner: Entity)
    requires m.labelGetters == [] && m.idOf(a) == Box("1") && m.idOf(b) == Box("2") && m.idOf(c) == Box("3")
    ensures var s := SetRelationMetadata(Initial, m, (parent: Option<string>) => [a, b, c], owner,
                                         ObjectCollection([Box("3"), Box("1")]));
            && s.status == Done
            && GetAvailableElements(s.state) == [Element(Box("1"), []), Element(Box("2"), []), Element(Box("3"), [])]
            && GetCurrentRelatedElements(s.state) == [Element(Box("1"), []), Element(Box("3"), [])]
  {
    var x1, x2, x3 := Element(Box("1"), []), Element(Box("2"), []), Element(Box("3"), []);
    assert Project(m, [a, b, c]) == [x1, x2, x3];
    ExampleFilter(x1, x2, x3);
  }
}

=== FILE: relation_service.dfy ===
/**
  The relation family of `CollectionService`: the list of entities related
  (or, when adding, not yet related) to an owning entity
  (`GetRelationListViewAsync`), and the buttons fired on that list
  (`ProcessRelationActionAsync` without an id) or on one of its rows
  (`ProcessRelationActionAsync` with an id and an edit context). Relation
  lists have no parent id.
 */
module RelationService {
  import opened Common
  import opened Config
  import opened Intents
  import Crud
  import U = Usage
  import Op = Operations
  import L = ListService

  /**
    The entities a relation list shows: those not yet related to `related`
    when adding, those related to it otherwise, with the repository call that
    reads them.
   */
  function RelationRows(env: Env, usage: U.UsageType, related: Entity): (r: (seq<Entity>, Event))
    ensures U.Add in usage <==> r.1.RepoGetAllNonRelated?
    ensures U.Add !in usage <==> r.1.RepoGetAllRelated?
    ensures r.1.related == related
    ensures U.Add in usage ==> r.0 == env.repository.getAllNonRelated(related)
    ensures U.Add !in usage ==> r.0 == env.repository.getAllRelated(related)
  {
    if U.Add in usage then (env.repository.getAllNonRelated(related), RepoGetAllNonRelated(related))
    else (env.repository.getAllRelated(related), RepoGetAllRelated(related))
  }

  /**
    `GetRelationListViewAsync`: creates a blank entity of the collection's
    default variant (passing the collection alias where the parent id goes),
    authorizes it under the action's operation, loads the non-related entities
    for an `add` action and the related ones otherwise, and arranges the rows:
    `add` rows are offered for picking. It never writes.
   */
  function GetRelationListView(env: Env, col: Collection, action: string, related: Entity): (o: Outcome<ListRequest>)
    ensures NoEffects(o.trace)
    ensures |o.trace| >= 1 && o.trace[0] == RepoNew(Some(col.alias), col.entityVariant.typeTag)
    ensures action !in U.Actions ==> o.result == Failure(InvalidOperation(UnknownAction)) && |o.trace| == 1
    ensures action in U.Actions ==>
              var blank := env.repository.newEntity(Some(col.alias), col.entityVariant.typeTag);
              var op := Op.MapActionToOperation(action).value;
              var usage := {U.List} + U.MapActionToUsageType(action);
              && |o.trace| >= 2 && o.trace[1] == Authorize(blank, op, env.authorize(blank, op))
              && (!env.authorize(blank, op) <==> o.result == Failure(Unauthorized))
              && (env.authorize(blank, op) ==>
                    o.trace == o.trace[..2] + [RelationRows(env, usage, related).1]
                    && o.result == L.ArrangeRows(env, col, usage, blank, RelationRows(env, usage, related).0, true))
    ensures o.result.Success? ==> action in {U.ListAction, U.AddAction, U.EditAction, U.NewAction}
  {
    var usage := {U.List} + U.MapActionToUsageType(action);
    var blank := env.repository.newEntity(Some(col.alias), col.entityVariant.typeTag);
    var made := [RepoNew(Some(col.alias), col.entityVariant.typeTag)];
    match Op.MapActionToOperation(action)
    case Failure(e) => Outcome(Failure(e), made)
    case Success(op) =>
      var granted := env.authorize(blank, op);
      var authorized := made + [Authorize(blank, op, granted)];
      if !granted then Outcome(Failure(Unauthorized), authorized)
      else
        var (existing, read) := RelationRows(env, usage, related);
        Outcome(L.ArrangeRows(env, col, usage, blank, existing, true), authorized + [read])
  }

  /**
    Collection-level buttons: the list view's when the usage has `List` or
    `Add`, the list editor's otherwise; null when that configuration or its
    buttons are missing.
   */
  function RelationButtons(col: Collection, usage: U.UsageType): (r: Option<seq<Button>>)
    ensures U.List in usage || U.Add in usage ==> (r.Some? <==> col.listView.Some? && col.listView.value.buttons.Some?)
    ensures !(U.List in usage || U.Add in usage) ==> (r.Some? <==> col.listEditor.Some? && col.listEditor.value.buttons.Some?)
    ensures r.Some? && (U.List in usage || U.Add in usage) ==> r == col.listView.value.buttons
    ensures r.Some? && !(U.List in usage || U.Add in usage) ==> r == col.listEditor.value.buttons
  {
    if U.List in usage || U.Add in usage then (if col.listView.Some? then col.listView.value.buttons else None)
    else (if col.listEditor.Some? then col.listEditor.value.buttons else None)
  }

  /**
    Row-level buttons: the buttons of the list view's view pane when the
    usage has `List` or `Add`; otherwise the buttons of every list editor
    pane, pane by pane. Null when the configuration or the pane(s) are
    missing.
   */
  function RelationRowButtons(col: Collection, usage: U.UsageType): (r: Option<seq<Button>>)
    ensures U.List in usage || U.Add in usage ==> (r.Some? <==> col.listView.Some? && col.listView.value.viewPane.Some?)
    ensures !(U.List in usage || U.Add in usage) ==>
              (r.Some? <==> col.listEditor.Some? && col.listEditor.value.editorPanes.Some?)
    ensures r.Some? && (U.List in usage || U.Add in usage) ==> r.value == col.listView.value.viewPane.value.buttons
    ensures r.Some? && !(U.List in usage || U.Add in usage) ==>
              && r.value == PaneButtons(col.listEditor.value.editorPanes.value)
              && forall b :: b in r.value <==> exists p :: p in col.listEditor.value.editorPanes.value && b in p.buttons
  {
    if U.List in usage || U.Add in usage then
      if col.listView.Some? && col.listView.value.viewPane.Some? then Some(col.listView.value.viewPane.value.buttons) else None
    else
      if col.listEditor.Some? && col.listEditor.value.editorPanes.Some? then Some(PaneButtons(col.listEditor.value.editorPanes.value)) else None
  }

  /**
    The relation family looks buttons up where the list family does, except
    that an `add` usage reads the list view's buttons as `list` does.
   */
  lemma ButtonSourcesMatchLists(col: Collection, usage: U.UsageType)
    ensures RelationButtons(col, usage) == L.ListButtons(col, if U.Add in usage then usage + {U.List} else usage)
    ensures RelationRowButtons(col, usage) == L.ListRowButtons(col, if U.Add in usage then usage + {U.List} else usage)
  {
  }

  /**
    The effect of a collection-level relation button: like a list's, without
    a parent id, plus `Add`, which switches the caller's parameters to `add`
    without calling the repository.
   */
  function RelationEffect(col: Collection, usage: U.UsageType, b: Button): (o: Outcome<ViewCommand>)
    ensures o.trace == []
    ensures o.result.Failure? ==> o.result.error.InvalidOperation?
    ensures b.crudType == Crud.Create ==> o.result == L.CreateCommand(col, usage, None, b)
    ensures o.result == Success(UpdateParameterCommand(U.AddAction, col.alias, None, None, None)) <==> b.crudType == Crud.Add
    ensures o.result == Success(NoOperationCommand) <==> b.crudType == Crud.None
    ensures o.result == Success(ReloadCommand) <==> b.crudType == Crud.Refresh
    ensures o.result == Success(ReturnCommand) <==> b.crudType == Crud.Return
    ensures o.result == Failure(InvalidOperation(UnsupportedCrudType)) <==>
              b.crudType !in {Crud.Create, Crud.Add, Crud.None, Crud.Refresh, Crud.Return}
  {
    match b.crudType
    case Create => Outcome(L.CreateCommand(col, usage, None, b), [])
    case Add => Outcome(Success(UpdateParameterCommand(U.AddAction, col.alias, None, None, None)), [])
    case None => Outcome(Success(NoOperationCommand), [])
    case Refresh => Outcome(Success(ReloadCommand), [])
    case Return => Outcome(Success(ReturnCommand), [])
    case _ => Outcome(Failure(InvalidOperation(UnsupportedCrudType)), [])
  }

  /**
    `ProcessRelationActionAsync` for a collection-level button: finds the
    button, creates a blank entity of the default variant without a parent,
    authorizes it under the button's operation, runs a custom button's
    callback and performs the effect. There is no form check, and nothing is
    written.
   */
  function ProcessRelationAction(env: Env, col: Collection, action: string, related: Entity,
                                 actionId: string, customData: Option<Payload>): (o: Outcome<ViewCommand>)
    ensures DispatchContract(o, env, env.repository.newEntity(None, col.entityVariant.typeTag),
                             FindButton(RelationButtons(col, U.MapActionToUsageType(action)), actionId), None,
                             [RepoNew(None, col.entityVariant.typeTag)])
    ensures forall i :: 0 <= i < |o.trace| ==> !IsMutation(o.trace[i])
  {
    var usage := U.MapActionToUsageType(action);
    var blank := env.repository.newEntity(None, col.entityVariant.typeTag);
    Dispatch(env, blank, FindButton(RelationButtons(col, usage), actionId), None,
             [RepoNew(None, col.entityVariant.typeTag)], CustomAction(None, None, customData),
             (b: Button) => RelationEffect(col, usage, b))
  }

  /**
    The effect of a row-level relation button once all checks passed. An
    insert also relates the inserted entity to the owner; `Pick` and `Remove`
    relate and unrelate the row's entity. There is no `Return` case.
   */
  function RelationRowEffect(env: Env, col: Collection, variant: EntityVariant, related: Entity,
                             id: string, ctx: EditContext, crud: Crud.CrudType): (o: Outcome<ViewCommand>)
    ensures o.result.Failure? ==> o.result == Failure(InvalidOperation(UnsupportedCrudType))
    ensures o.result.Failure? <==> crud in {Crud.Create, Crud.Add, Crud.Return}
    ensures |o.trace| <= 2
    ensures forall i :: 0 <= i < |o.trace| && IsMutation(o.trace[i]) ==> Crud.Mutates(crud)
    ensures o.trace == [RepoUpdate(id, None, ctx.entity, ctx.relations)] <==> crud == Crud.Update
    ensures o.trace == [RepoDelete(id, None)] <==> crud == Crud.Delete
    ensures o.trace == [RepoAdd(related, Some(id))] <==> crud == Crud.Pick
    ensures o.trace == [RepoRemove(related, id)] <==> crud == Crud.Remove
    ensures crud == Crud.Insert <==>
              o.trace == [RepoInsert(None, ctx.entity, ctx.relations),
                          RepoAdd(related, env.repository.insert(None, ctx.entity, ctx.relations).id)]
    ensures o.trace == [] <==> !Crud.Mutates(crud)
    ensures o.result == Success(ReloadCommand) <==> crud in {Crud.Update, Crud.Delete, Crud.Pick, Crud.Remove, Crud.Refresh}
    ensures o.result == Success(NoOperationCommand) <==> crud == Crud.None
    ensures crud == Crud.View ==> o.result == Success(NavigateCommand(NodeRoute(U.ViewAction, col.alias, variant, None, Some(id))))
    ensures crud == Crud.Read ==> o.result == Success(NavigateCommand(NodeRoute(U.EditAction, col.alias, variant, None, Some(id))))
    ensures crud == Crud.Insert ==>
              o.result == Success(UpdateParameterCommand(U.NewAction, col.alias, Some(variant.alias), None,
                                                         env.repository.insert(None, ctx.entity, ctx.relations).id))
  {
    match crud
    case View => Outcome(Success(NavigateCommand(NodeRoute(U.ViewAction, col.alias, variant, None, Some(id)))), [])
    case Read => Outcome(Success(NavigateCommand(NodeRoute(U.EditAction, col.alias, variant, None, Some(id)))), [])
    case Update => Outcome(Success(ReloadCommand), [RepoUpdate(id, None, ctx.entity, ctx.relations)])
    case Insert =>
      var inserted := env.repository.insert(None, ctx.entity, ctx.relations);
      Outcome(Success(UpdateParameterCommand(U.NewAction, col.alias, Some(variant.alias), None, inserted.id)),
              [RepoInsert(None, ctx.entity, ctx.relations), RepoAdd(related, inserted.id)])
    case Delete => Outcome(Success(ReloadCommand), [RepoDelete(id, None)])
    case Pick => Outcome(Success(ReloadCommand), [RepoAdd(related, Some(id))])
    case Remove => Outcome(Success(ReloadCommand), [RepoRemove(related, id)])
    case None => Outcome(Success(NoOperationCommand), [])
    case Refresh => Outcome(Success(ReloadCommand), [])
    case _ => Outcome(Failure(InvalidOperation(UnsupportedCrudType)), [])
  }

  /**
    `ProcessRelationActionAsync` for a button on one row: finds the button in
    the row's panes, authorizes the row's entity, checks the form when
    required, resolves the entity's variant, runs a custom button's callback
    and performs the effect against the owner's relation.
   */
  function ProcessRelationRowAction(env: Env, col: Collection, action: string, related: Entity, id: string,
                                    ctx: EditContext, actionId: string, customData: Option<Payload>): (o: Outcome<ViewCommand>)
    ensures DispatchContract(o, env, ctx.entity, FindButton(RelationRowButtons(col, U.MapActionToUsageType(action)), actionId),
                             Some(ctx.isValid), [])
    ensures forall i :: 0 <= i < |o.trace| && IsMutation(o.trace[i]) ==>
              Crud.Mutates(FindButton(RelationRowButtons(col, U.MapActionToUsageType(action)), actionId).value.crudType)
  {
    var usage := U.MapActionToUsageType(action);
    var variant := env.variantOf(ctx.entity);
    Dispatch(env, ctx.entity, FindButton(RelationRowButtons(col, usage), actionId), Some(ctx.isValid), [],
             CustomAction(None, Some(id), customData),
             (b: Button) => RelationRowEffect(env, col, variant, related, id, ctx, b.crudType))
  }
}

=== FILE: sequences.dfy ===
/**
  The list operations the core relies on (`Where`, `First`/`FirstOrDefault`,
  `RemoveAll`), with the facts that pin down what they return.
 */
module Sequences {
  import opened Common

  /** `a` is `b` with some elements left out, the rest in their order. */
  predicate IsSubsequence<T(==)>(a: seq<T>, b: seq<T>)
    decreases |b|
  {
    if |b| == 0 then |a| == 0
    else |a| == 0
         || (a[0] == b[0] && IsSubsequence(a[1..], b[1..]))
         || IsSubsequence(a, b[1..])
  }

  /** `Where(keep).ToList()`: the elements that satisfy `keep`, in their order. */
  function Where<T(==,!new)>(s: seq<T>, keep: T -> bool): (r: seq<T>)
    ensures IsSubsequence(r, s)
    ensures forall x :: x in r <==> x in s && keep(x)
  {
    if |s| == 0 then []
    else
      var rest := Where(s[1..], keep);
      assert s == [s[0]] + s[1..];
      if keep(s[0]) then
        assert ([s[0]] + rest)[1..] == rest;
        [s[0]] + rest
      else rest
  }

  /** `Where` keeps every kept element as often as the source holds it, and drops the others entirely. */
  lemma {:induction false} WhereCounts<T(!new)>(s: seq<T>, keep: T -> bool)
    ensures forall x :: multiset(Where(s, keep))[x] == if keep(x) then multiset(s)[x] else 0
    decreases |s|
  {
    if |s| > 0 {
      WhereCounts(s[1..], keep);
      assert s == [s[0]] + s[1..];
    }
  }

  /** `FirstOrDefault(match)`: the first element that matches, if any. */
  function First<T>(s: seq<T>, match_: T -> bool): (r: Option<T>)
    ensures r.None? <==> forall i :: 0 <= i < |s| ==> !match_(s[i])
    ensures r.Some? ==> exists i :: 0 <= i < |s| && s[i] == r.value && match_(r.value)
                                    && forall j :: 0 <= j < i ==> !match_(s[j])
  {
    if |s| == 0 then None
    else if match_(s[0]) then Some(s[0])
    else
      var r := First(s[1..], match_);
      assert forall i :: 1 <= i < |s| ==> s[i] == s[1..][i - 1];
      r
  }

  /** A subsequence never holds an element more often than the sequence it is taken from. */
  lemma {:induction false} SubsequenceCounts<T>(a: seq<T>, b: seq<T>)
    requires IsSubsequence(a, b)
    ensures multiset(a) <= multiset(b)
    decreases |b|
  {
    if |b| == 0 {
    } else if |a| == 0 {
    } else if a[0] == b[0] && IsSubsequence(a[1..], b[1..]) {
      SubsequenceCounts(a[1..], b[1..]);
      assert a == [a[0]] + a[1..];
      assert b == [b[0]] + b[1..];
    } else {
      SubsequenceCounts(a, b[1..]);
      assert b == [b[0]] + b[1..];
    }
  }

  /**
    `Where` is the only order-preserving selection that keeps exactly the
    elements satisfying `keep`: any subsequence of `s` holding every such
    element as often as `s` does, and nothing else, is `Where(s, keep)`.
   */
  lemma {:induction false} WhereIsUnique<T(!new)>(s: seq<T>, keep: T -> bool, r: seq<T>)
    requires IsSubsequence(r, s)
    requires forall x :: multiset(r)[x] == if keep(x) then multiset(s)[x] else 0
    ensures r == Where(s, keep)
    decreases |s|
  {
    if |s| == 0 {
    } else {
      var head, tail := s[0], s[1..];
      assert s == [head] + tail;
      if |r| > 0 && r[0] == head && IsSubsequence(r[1..], tail) && keep(head) {
        assert r == [head] + r[1..];
        forall x ensures multiset(r[1..])[x] == if keep(x) then multiset(tail)[x] else 0 {
          assert multiset(r)[x] == multiset(r[1..])[x] + (if x == head then 1 else 0);
          assert multiset(s)[x] == multiset(tail)[x] + (if x == head then 1 else 0);
        }
        WhereIsUnique(tail, keep, r[1..]);
      } else if keep(head) {
        // r must skip the head, but then it holds the head too rarely
        assert IsSubsequence(r, tail) by {
          if |r| > 0 && r[0] == head {
            assert !IsSubsequence(r[1..], tail) || !keep(head);
          }
        }
        SubsequenceCounts(r, tail);
        assert false;
      } else {
        assert IsSubsequence(r, tail) by {
          if |r| > 0 && r[0] == head {
            assert false;
          }
        }
        forall x ensures multiset(r)[x] == if keep(x) then multiset(tail)[x] else 0 {
          assert multiset(s)[x] == multiset(tail)[x] + (if x == head then 1 else 0);
        }
        WhereIsUnique(tail, keep, r);
      }
    }
  }

  /** The first match in a concatenation is the first part's, or else the second part's. */
  lemma {:induction false} FirstConcat<T>(a: seq<T>, b: seq<T>, match_: T -> bool)
    ensures First(a + b, match_) == if First(a, match_).Some? then First(a, match_) else First(b, match_)
    decreases |a|
  {
    if |a| == 0 {
      assert a + b == b;
    } else {
      assert (a + b)[0] == a[0];
      assert (a + b)[1..] == a[1..] + b;
      FirstConcat(a[1..], b, match_);
    }
  }

  /** Filtering a concatenation filters each part. */
  lemma {:induction false} WhereConcat<T(!new)>(a: seq<T>, b: seq<T>, keep: T -> bool)
    ensures Where(a + b, keep) == Where(a, keep) + Where(b, keep)
    decreases |a|
  {
    if |a| == 0 {
      assert a + b == b;
    } else {
      assert (a + b)[1..] == a[1..] + b;
      WhereConcat(a[1..], b, keep);
    }
  }

  /** Filtering keeps a sequence whole when every element satisfies `keep`. */
  lemma {:induction false} WhereKeepsAll<T(!new)>(s: seq<T>, keep: T -> bool)
    requires forall x :: x in s ==> keep(x)
    ensures Where(s, keep) == s
    decreases |s|
  {
    if |s| > 0 {
      assert forall x :: x in s[1..] ==> x in s;
      WhereKeepsAll(s[1..], keep);
      assert s == [s[0]] + s[1..];
    }
  }

  /** Filtering twice with the same test is filtering once. */
  lemma WhereIdempotent<T(!new)>(s: seq<T>, keep: T -> bool)
    ensures Where(Where(s, keep), keep) == Where(s, keep)
  {
    WhereKeepsAll(Where(s, keep), keep);
  }
}

=== FILE: usage.dfy ===
/**
  The usage classifier: where and how an action is invoked, as a set of
  usage flags (the `UsageType` bit-flag enum), and the action names that
  select them.
 */
module Usage {

  /** One bit of the `UsageType` flag enum. */
  datatype Flag = List | Node | Add | New | Edit | View | Pick

  /** A combination of flags, e.g. `{Node, Edit}` for `UsageType.Node | UsageType.Edit`. */
  type UsageType = set<Flag>

  // The action name constants.
  const EditAction: string := "edit"
  const NewAction: string := "new"
  const AddAction: string := "add"
  const ViewAction: string := "view"
  const ListAction: string := "list"
  const PickAction: string := "pick"

  /** The actions the classifiers recognise. */
  const Actions: set<string> := {EditAction, NewAction, AddAction, ViewAction, ListAction, PickAction}

  /** The flags an action name can select on its own: every flag but `Node`. */
  const ActionFlags: set<Flag> := {List, Add, New, Edit, View, Pick}

  /**
    `MapActionToUsageType`: each of the six actions selects its own single
    flag; any other string selects the empty flag set (`(UsageType)0`).
   */
  function MapActionToUsageType(action: string): (u: UsageType)
    ensures action in Actions <==> u != {}
    ensures u != {} ==> exists f :: f in ActionFlags && u == {f}
    ensures Node !in u
  {
    if action == EditAction then {Edit}
    else if action == NewAction then {New}
    else if action == AddAction then {Add}
    else if action == ViewAction then {View}
    else if action == ListAction then {List}
    else if action == PickAction then {Pick}
    else {}
  }

  /** The action name that selects a flag: the inverse of `MapActionToUsageType`. */
  function ActionName(f: Flag): (a: string)
    requires f in ActionFlags
    ensures a in Actions
    ensures MapActionToUsageType(a) == {f}
  {
    match f
    case List => ListAction
    case Add => AddAction
    case New => NewAction
    case Edit => EditAction
    case View => ViewAction
    case Pick => PickAction
  }

  /** Classifying is injective on the six actions: two actions that select the same non-empty set are the same action. */
  lemma ClassifierInjective(a: string, b: string)
    requires MapActionToUsageType(a) != {}
    requires MapActionToUsageType(a) == MapActionToUsageType(b)
    ensures a == b
  {
  }

  /** Round trip from actions: every recognised action is the name of the flag it selects. */
  lemma ActionNameRoundTrip(a: string)
    requires a in Actions
    ensures exists f :: f in ActionFlags && MapActionToUsageType(a) == {f} && ActionName(f) == a
  {
    var f :| f in ActionFlags && MapActionToUsageType(a) == {f};
    ClassifierInjective(a, ActionName(f));
  }
}

/**
  The authorization operations an action or a CRUD effect is checked under.
 */
module Operations {
  import opened Common
  import U = Usage

  /**
    The operation requirements of `Operations`; `Other` stands for those
    only `GetOperationForCrudType` produces, which this model does not list.
   */
  datatype Operation = Create | Update | Add | View | List | Pick | Other(name: string)

  /**
    `MapActionToOperation`: the six actions map to their own operation; any
    other string throws `InvalidOperationException`, so an unrecognised
    action never reaches authorization with a default operation.
   */
  function MapActionToOperation(action: string): (r: Result<Operation>)
    ensures r.Success? <==> action in U.Actions
    ensures r.Failure? ==> r.error == InvalidOperation(UnknownAction)
    ensures r.Success? ==> !r.value.Other?
  {
    if action == U.EditAction then Success(Update)
    else if action == U.NewAction then Success(Create)
    else if action == U.AddAction then Success(Add)
    else if action == U.ViewAction then Success(View)
    else if action == U.ListAction then Success(List)
    else if action == U.PickAction then Success(Pick)
    else Failure(InvalidOperation(UnknownAction))
  }

  /**
    The two classifiers agree on what an action is: the operation mapping
    succeeds exactly when the usage mapping yields a flag, and distinct
    actions are checked under distinct operations.
   */
  lemma ClassifiersAgree(a: string, b: string)
    ensures MapActionToOperation(a).Success? <==> U.MapActionToUsageType(a) != {}
    ensures MapActionToOperation(a).Success? && MapActionToOperation(a) == MapActionToOperation(b) ==> a == b
  {
  }
}
